=== FILE: README.md ===
# docker-dashboard compose core, modelled in Dafny

This project models the back end of a dashboard for Docker Compose projects. The
back end finds compose files on disk, parses them into a normalised service list,
and runs a fixed set of `docker-compose` lifecycle commands against them. Its HTTP
router keeps the last scan's result in memory.

The model has six modules:

- `Wrappers` holds `Option` and `Result`.
- `PathText` holds the string operations the service uses:
  - `path.join` and `path.dirname` over `/`-separated paths
  - ASCII `toLowerCase`
  - `String.prototype.split` and `trim`
- `ComposeScanner` models `scanDirectory` and `scanForComposeFiles`.
  - The filesystem is a tree of `Node`s: a readable directory, an unreadable directory, a regular file with or without `stat` data, or anything else.
  - Each root path maps to its tree, and `SCAN_DIRECTORIES` is a parameter.
  - `ScanDirectory` is a recursive method with a loop that appends to an accumulator, as the source does.
  - It is proved equal to the specification function `ScanSpec`.
  - `ScanSpec` is proved sound and complete against `Reported`, a path-based characterisation: the depth bound, skipped and hidden directories, and case-insensitive name matching.
- `ComposeParser` models `parseComposeFile` over an abstract YAML value, with JavaScript's behaviour written out:
  - truthiness and `||`
  - `String(v)` and template stringification
  - `Object.entries` and `Object.keys`
  - the `TypeError`s raised on `null` and on `.map` of a non-list
  - The file's content and the outcome of `yaml.load` are an input (`FileState`).
- `ComposeCommand` models `executeComposeCommand`.
  - It models the command switch and the argument vector, the working directory, and how the first process outcome becomes the result or the rejection.
  - The process outcome is an input.
- `ComposeRoutes` models the router's module state as the class `Catalog`, with fields `files` and `lastScanTime`.
  - Its methods model the `/files`, `/files/:id/details`, `/files/:id/status` and `/files/:id/command` handlers.
  - The current time, the environment, the filesystem and the process outcome are parameters.
  - `parseInt(id, 10)` is modelled as `ParseId`, where `None` stands for `NaN`. A `NaN` id passes the bounds check, and the handler then fails reading `path` of `undefined`. That gives a 500 rather than a 404, and the model keeps this.

Some facts about the code that the model keeps as they are:

- File ids are the 0-based positions of the records in the scan's output.
- The command line starts with `docker-compose`; no elevation wrapper such as `sudo` is added. The shell that `shell: true` puts in front of it is not modelled (see Left out).
- Spawn failures and timeouts reject with a plain `Error` whose message is all that distinguishes them.
- The router imports `getContainerStatus` from `composeService.js`, which neither defines nor exports it (see Findings).

## Model

| member | source | states |
|---|---|---|
| PathText.DirnameBasenameOfJoin | backend/src/services/composeService.js:187 | for a name without `/`, `dirname` of `join(dir, name)` is `dir` and its base name is `name` |
| PathText.Join | backend/src/services/composeService.js:47 | the joined path is the directory, one `/`, and the entry name |
| PathText.Dirname | backend/src/services/composeService.js:187 | a path without `/` has dirname `.`; otherwise the dirname is everything before the last `/` |
| PathText.Lower | backend/src/services/composeService.js:60 | lower-casing keeps the length and maps every character through the ASCII case fold |
| PathText.LowerIdempotent | backend/src/services/composeService.js:60 | lower-casing twice is lower-casing once |
| PathText.Split | backend/src/services/composeService.js:11 | `split` yields at least one part and no part contains the separator |
| PathText.JoinSplit | backend/src/services/composeService.js:11 | joining the parts of a split with the separator gives the original string back |
| PathText.SplitPair | backend/src/services/composeService.js:11 | two separator-free pieces joined by the separator split back into exactly those two pieces |
| PathText.SplitJoin | backend/src/services/composeService.js:11 | splitting a join of separator-free parts gives the parts back |
| PathText.TrimStart | backend/src/services/composeService.js:12 | the result is a suffix, only white space was dropped, and it does not start with white space |
| PathText.TrimEnd | backend/src/services/composeService.js:12 | the result is a prefix, only white space was dropped, and it does not end with white space |
| PathText.TrimOfTrimmed | backend/src/services/composeService.js:12 | a string that neither starts nor ends with white space is its own `trim` |
| PathText.Trim | backend/src/services/composeService.js:12 | `trim` gives a slice of the string that neither starts nor ends with white space, and everything cut off before and after it is white space |
| ComposeScanner.ScanDirectory | backend/src/services/composeService.js:40-78 | the accumulator ends as its old contents followed by exactly `ScanSpec` of the directory |
| ComposeScanner.ListingConcat | backend/src/services/composeService.js:46-74 | a listing's results are the results of its first entries followed by those of the rest, so a subdirectory's matches come before later siblings |
| ComposeScanner.FailureIsLocal | backend/src/services/composeService.js:52-77 | an unreadable directory, a skipped or hidden directory, an unstat-able file or a non-matching entry adds nothing, and its siblings' results are unchanged |
| ComposeScanner.ScanSound | backend/src/services/composeService.js:40-78 | every reported record is a matching file reached through non-skipped directories within the depth bound, with the original-case name, `path = join(directory, name)`, and its size and mtime |
| ComposeScanner.ScanComplete | backend/src/services/composeService.js:40-78 | every such file is reported |
| ComposeScanner.ScanFindsExactly | backend/src/services/composeService.js:40-78 | a record is reported if and only if it is so reachable |
| ComposeScanner.ScanScenario | backend/src/services/composeService.js:50-69 | a tree with `a/docker-compose.yml`, `a/node_modules/docker-compose.yml` and `.hidden/docker-compose.yaml` yields exactly the record for `a/docker-compose.yml` |
| ComposeScanner.ScanRoots | backend/src/services/composeService.js:10-12 | the root list is never empty, and every root is free of commas and has no white space at either end |
| ComposeScanner.TrimPieces | backend/src/services/composeService.js:12 | each comma-free piece becomes its trimmed form, which stays comma-free and has no outer white space |
| ComposeScanner.ScanRootsOfJoin | backend/src/services/composeService.js:10-12 | the roots read from a comma-joined list of comma-free pieces are exactly those pieces, trimmed |
| ComposeScanner.ScanRootsTrimsPieces | backend/src/services/composeService.js:10-12 | there are as many roots as comma-separated pieces, and root `k` is piece `k` trimmed |
| ComposeScanner.ScanRootsRoundTrip | backend/src/services/composeService.js:10-12 | a comma-joined list of trimmed roots is read back as that list |
| ComposeScanner.ScanRootsDefault | backend/src/services/composeService.js:10 | an unset or empty `SCAN_DIRECTORIES` scans only `C:\Users` |
| ComposeScanner.Number | backend/src/services/composeService.js:31-34 | numbering keeps the length, gives each record its 0-based position as id and keeps every other field |
| ComposeScanner.NumberRoundTrip | backend/src/services/composeService.js:31-34 | dropping the ids gives the records back, and any densely numbered list is a numbering |
| ComposeScanner.ComposeNameHasNoSep | backend/src/services/composeService.js:60 | a name that matches a compose pattern contains no separator |
| ComposeScanner.ScannedFileShape | backend/src/services/composeService.js:63-69 | every scanned record has a compose name, and `dirname` of its path is its directory |
| ComposeScanner.ScanEachRoot | backend/src/services/composeService.js:22-28 | the loop leaves exactly the concatenation of each root's scan from depth 0 to depth 5, in root order |
| ComposeScanner.NumberedScanWellFormed | backend/src/services/composeService.js:31-34 | every numbered record of a scan has a compose name and a path that joins its directory and its name |
| ComposeScanner.ScanForComposeFiles | backend/src/services/composeService.js:9-35 | the result is the numbered concatenation of the per-root scans in root order, with dense ids and well-formed records |
| ComposeParser.FalsyValues | backend/src/services/composeService.js:90 | a value is falsy if and only if it is `undefined`, `null`, `false`, `0` or the empty string |
| ComposeParser.Or | backend/src/services/composeService.js:111 | `a \|\| b` is one of its operands, is `a` when `a` is truthy, and is truthy exactly when one of them is |
| ComposeParser.OrNull | backend/src/services/composeService.js:94-95 | `x \|\| null` is the value when it is truthy and `null` when it is falsy or missing |
| ComposeParser.OrEmpty | backend/src/services/composeService.js:99-100 | `x \|\| []` is the value when it is truthy and `[]` when it is falsy or missing |
| ComposeParser.DecimalRoundTrip | backend/src/services/composeService.js:111 | the decimal rendering of a number reads back as that number |
| ComposeParser.Lookup | backend/src/services/composeService.js:94-102 | reading `config.<key>` from a mapping: `undefined` exactly when no entry has that key, and otherwise the value of the first entry with that key |
| ComposeParser.Show | backend/src/services/composeService.js:111-113 | `String(v)` keeps a string as it is, and renders an integer as digits that read back as its value, after a `-` when it is negative (exact for magnitudes below 2^53; see Left out for larger ones) |
| ComposeParser.Stringify | backend/src/services/composeService.js:111 | a template renders a missing value as `undefined`, `null` as `null` and a string as itself |
| ComposeParser.ObjectEntries | backend/src/services/composeService.js:134 | `Object.entries` lists a mapping's pairs, and a list's or a string's elements under their index keys; other values have none |
| ComposeParser.ObjectKeys | backend/src/services/composeService.js:146-147 | `Object.keys` gives the entries' keys in order |
| ComposeParser.NormalizePort | backend/src/services/composeService.js:107-114 | a string port is kept; an object port renders `(published \|\| host):(target \|\| container)`; `null` raises the `TypeError` for `published`; other values render with `String` |
| ComposeParser.NormalizeVolume | backend/src/services/composeService.js:119-126 | a string volume is kept; an object volume renders `source:target`; `null` raises the `TypeError` for `source`; other values render with `String` |
| ComposeParser.NormalizeEnvironment | backend/src/services/composeService.js:130-137 | a falsy value gives `[]`, a list passes through, a mapping gives `key=value` strings in entry order, and any other truthy value gives `[]` |
| ComposeParser.EnvEntries | backend/src/services/composeService.js:134-135 | one `key=value` string per mapping entry, at the same position |
| ComposeParser.MapAll | backend/src/services/composeService.js:107 | mapping succeeds if and only if every element does; it then keeps the length and order, and otherwise fails with the first failing element's error |
| ComposeParser.MapAllStopsAtError | backend/src/services/composeService.js:91-140 | once an element fails, no later element changes the outcome |
| ComposeParser.MapField | backend/src/services/composeService.js:106-127 | a falsy field gives `[]`, a truthy non-list raises `.map is not a function`, and a truthy list gives `MapAll` of the element normaliser: every element normalised in order, or the first failing element's error |
| ComposeParser.ServiceOf | backend/src/services/composeService.js:92-139 | a `null` config fails with the TypeError of reading `image` from `null`; otherwise a port that fails to normalise gives its error, and only then a volume that fails gives its error; otherwise the service keeps its name, normalises ports, volumes and environment, and defaults `image`, `build`, `command`, `restart` to `null` and `depends_on`, `networks` to `[]` |
| ComposeParser.ParseSpec | backend/src/services/composeService.js:83-154 | fails exactly on a read error, a load error or a failing service, with the `Failed to parse compose file: ` prefix followed by the read error's, the loader's or the first failing service's message; otherwise one service per entry in order, the defaulted version, the top-level network and volume names, and the raw text |
| ComposeParser.BuildServices | backend/src/services/composeService.js:88-140 | the loop over the service entries yields every normalised service in entry order, or stops at the first entry whose normalisation fails |
| ComposeParser.ParseComposeFile | backend/src/services/composeService.js:83-154 | the loop over the service entries yields `ParseSpec` of the file's state |
| ComposeParser.NoServicesIsEmpty | backend/src/services/composeService.js:88-90 | a document without `services` parses to an empty service list, not an error |
| ComposeParser.LongPortRenders | backend/src/services/composeService.js:111 | a `published`/`target` or `host`/`container` port renders as the two values joined by `:` |
| ComposeParser.LongPortWithoutPublished | backend/src/services/composeService.js:111 | a long-form port with neither `published` nor `host` renders as `undefined:<target>` |
| ComposeParser.LongPortRoundTrip | backend/src/services/composeService.js:111 | both numbers of a long-form port can be read back from its rendering |
| ComposeParser.PortFormsAgree | backend/src/services/composeService.js:107-114 | the short form `p:t` and both long forms of a port give the same string |
| ComposeParser.LongVolumeRoundTrip | backend/src/services/composeService.js:123 | a long-form volume renders `source:target`, and splitting on `:` gives both paths back |
| ComposeParser.EnvironmentFormsAgree | backend/src/services/composeService.js:130-136 | a mapping environment gives the same strings as the list of its `key=value` entries |
| ComposeCommand.ParseCommand | backend/src/services/composeService.js:164-181 | a command is recognised if and only if it is one of `up`, `down`, `build`, `ps`, `logs`, and then it is the one so named |
| ComposeCommand.ParseName | backend/src/services/composeService.js:164-181 | every command is recognised by its own name |
| ComposeCommand.Suffix | backend/src/services/composeService.js:165-179 | every command's words start with its name |
| ComposeCommand.ArgsDetermineCommand | backend/src/services/composeService.js:161-179 | the argument vector names the file and determines the command |
| ComposeCommand.BuildArgs | backend/src/services/composeService.js:161-181 | an unknown command is rejected with `Unknown command: `; otherwise the arguments are `-f <file>` followed by the command's fixed words |
| ComposeCommand.CommandLine | backend/src/services/composeService.js:208 | the reported command line starts with `docker-compose ` and, when no argument contains a space, splits at spaces into the program and the argument vector |
| ComposeCommand.ExecuteComposeCommand | backend/src/services/composeService.js:159-222 | nothing is spawned for an unknown command; otherwise the CLI runs in the file's directory, a close resolves with `success` exactly when the exit code is 0, and a spawn error or the timeout rejects with its message |
| ComposeRoutes.CacheAge | backend/src/routes/compose.js:26 | the age is infinite without a scan time or with a zero one, and otherwise the time since the scan |
| ComposeRoutes.ServeFromCache | backend/src/routes/compose.js:25-29 | the cache answers if and only if there is no refresh, a non-zero scan time less than five minutes ago, and a non-empty list |
| ComposeRoutes.ScanThenCache | backend/src/routes/compose.js:26-40 | after a scan that found files, listings are served from memory until five minutes have passed, and never on refresh |
| ComposeRoutes.EmptyOrNewRescans | backend/src/routes/compose.js:17-29 | before any scan the listing rescans whatever the cache holds, and whenever the cache is empty it rescans whatever the last scan time |
| ComposeRoutes.ParseId | backend/src/routes/compose.js:60 | after leading white space and one optional sign, the id is `NaN` exactly when no digit follows, and otherwise the signed value of the whole digit run that follows |
| ComposeRoutes.ReadSigned | backend/src/routes/compose.js:60 | after an optional sign, `NaN` exactly when no digit follows, and otherwise the signed value of the whole digit run |
| ComposeRoutes.ParseIdOfDecimal | backend/src/routes/compose.js:60 | a decimal id reads back as its number, whatever non-digit text follows it |
| ComposeRoutes.ParseIdWithoutDigits | backend/src/routes/compose.js:60 | an id without any digit is `NaN` |
| ComposeRoutes.Locate | backend/src/routes/compose.js:63 | a negative or too large id is missing, `NaN` passes the check and finds `undefined`, and any other id names that entry |
| ComposeRoutes.Catalog.constructor | backend/src/routes/compose.js:16-17 | the catalogue starts empty and never scanned |
| ComposeRoutes.Catalog.ListFiles | backend/src/routes/compose.js:23-52 | when the freshness rule allows it, answers the cached list with `cached: true` and changes nothing; otherwise replaces the list with a fresh scan and the scan time with the clock reading taken after the scan, and answers them with `cached: false` |
| ComposeRoutes.Catalog.Details | backend/src/routes/compose.js:58-83 | 404 for an out-of-range id without parsing, 500 for `NaN` or a failed parse, and otherwise the entry with its parsed details; the catalogue is unchanged |
| ComposeRoutes.Catalog.Status | backend/src/routes/compose.js:129-150 | 404 for an out-of-range id, 500 for `NaN`, and otherwise the entry whose status is queried; the catalogue is unchanged |
| ComposeRoutes.Catalog.RunCommand | backend/src/routes/compose.js:89-123 | 400 for a missing or disallowed command before the id is looked at, then 404 or 500 as for details, and nothing spawned in any of these cases; otherwise the command runs on the entry's path in the directory it was found in, and spawn errors and timeouts become a 500 with the message as details |
| ComposeRoutes.FirstUnresolved | backend/src/routes/compose.js:3-8 | linking named imports fails at the first name the module does not export, and succeeds exactly when every name is exported |
| ComposeRoutes.RouterImportUnresolved | backend/src/routes/compose.js:3-8 | against the service's actual exports, the router's import of `getContainerStatus` is unresolved |
| ComposeRoutes.RouterImportResolves | backend/src/routes/compose.js:3-8 | once the service also exports `getContainerStatus`, every import of the router resolves |

## Left out

- `getContainerStatus` is not defined in `composeService.js`, so there is no status query to model. The details and status routes are modelled up to the entry whose status they would query, as if the import resolved (see Findings).
- Spawning the child process, its output events, the kill on timeout and the race between close, error and timer are outside the model. The first outcome is an input (`ProcessOutcome`), and the output is taken as already accumulated.
- The `shell: true` option of the spawn is not modelled. The model keeps the argument vector, not the shell's word splitting of it.
- The `js-yaml` loader is outside the model. Its result (a value, an empty document, or an error message) is an input. YAML floats, dates, anchors and duplicate keys are not modelled, and numbers are integers.
- ComposeParser.ObjectEntries: keeps document order for every key, whereas JavaScript lists integer-like keys of an object first, in ascending order.
- PathText.Lower: folds only `A`-`Z`, whereas `toLowerCase` folds all of Unicode.
- PathText.Join: does not normalise `.`, `..` or repeated separators, and knows only `/` as a separator, not Windows separators.
- PathText.Dirname: gives the empty string for a path whose only `/` is the leading one (`/x`), where `path.dirname` gives `/`, and does not strip trailing separators first. With `PathText.Join`, a root of `/` or an empty root therefore gives paths and spawn directories that differ from Node's.
- `fs.readdir`, `fs.stat` and `fs.readFile` are replaced by the `Node` tree and a map from paths to `FileState`. File sizes are naturals and modification times are integers rather than `Date` objects.
- The entries of a directory are taken in the order the tree lists them; `readdir`'s own order is not modelled.
- The `/files` handler reads `Date.now()` twice: before the freshness test and again after the scan. These are the parameters `now` and `scanDone` of `ListFiles`. The environment variable `SCAN_DIRECTORIES` is a parameter too.
- The `/files` handler's 500 answer on a thrown scan error cannot arise in the model: the scan handles every failure of the tree itself.
- A request body whose `command` is not a string, and a `refresh` query that is not a string, are both modelled as absent. Both give the same answers as absent.
- ComposeParser.Show: renders every integer as its exact decimal digits. JavaScript's `String` differs for large numbers. Above 2^53 it prints the shortest digits that round-trip the double (`String(2**60)` is `"1152921504606847000"`). From 1e21 up it uses exponent form (`String(1e21)` is `"1e+21"`). Ports and `${v}` environment values of that size are rendered differently by the code, because the model's numbers are unbounded integers, not doubles.
- ComposeRoutes.ParseId: reads any number of digits exactly, whereas `parseInt` loses precision above 2^53. Such ids are out of range either way.
- Concurrent requests are not modelled: each handler runs to completion on the catalogue.
- Logging, authentication middleware, the login route, the Express wiring and the front end are outside the model.

## Findings

| source | as written | input that shows it | evidently intended | confidence | as-written member | corrected member |
|---|---|---|---|---|---|---|
| backend/src/routes/compose.js:3-8 | the router imports `getContainerStatus` by name from `composeService.js`, which exports only `scanForComposeFiles`, `parseComposeFile` and `executeComposeCommand` (lines 9, 83, 159, 224-228) | loading the router: ES module linking fails with `SyntaxError: The requested module '../services/composeService.js' does not provide an export named 'getContainerStatus'`, so no route of the router ever runs | the service also exports a `getContainerStatus(path)` status query, and the router's handlers run as modelled | not executed; high that the import cannot resolve against this file as written | ComposeRoutes.RouterImportUnresolved | ComposeRoutes.RouterImportResolves |

=== FILE: compose_command.dfy ===
/**
 * The validation and argument building of `executeComposeCommand`, and how the
 * outcome of the child process becomes its result. The process itself (spawn,
 * output events, the kill on timeout) is outside the model: its outcome is an input.
 */
module ComposeCommand {
  import opened Wrappers
  import opened PathText

  /** The lifecycle commands the service accepts. */
  datatype Command = Up | Down | Build | Ps | Logs

  const AllowedCommands: seq<string> := ["up", "down", "build", "ps", "logs"]

  /** The CLI that is spawned. */
  const Program: string := "docker-compose"

  /** The rejection message once the five-minute (300000 ms) wall-clock limit kills the child. */
  const TimeoutMessage: string := "Command timed out after 5 minutes"

  /** The name a client sends for a command. */
  function Name(c: Command): string
  {
    match c
    case Up => "up"
    case Down => "down"
    case Build => "build"
    case Ps => "ps"
    case Logs => "logs"
  }

  /** The command a client's string names, if it is one of the allowed ones. */
  function ParseCommand(s: string): (r: Option<Command>)
    ensures r.Some? <==> s in AllowedCommands
    ensures r.Some? ==> Name(r.value) == s
  {
    if s == "up" then Some(Up)
    else if s == "down" then Some(Down)
    else if s == "build" then Some(Build)
    else if s == "ps" then Some(Ps)
    else if s == "logs" then Some(Logs)
    else None
  }

  /** Every command is recognised by its own name. */
  lemma ParseName(c: Command)
    ensures ParseCommand(Name(c)) == Some(c)
  {
  }

  /** The arguments that follow `-f <file>` for each command. */
  function Suffix(c: Command): (r: seq<string>)
    ensures |r| >= 1 && r[0] == Name(c)
  {
    match c
    case Up => ["up", "-d"]
    case Down => ["down"]
    case Build => ["build"]
    case Ps => ["ps"]
    case Logs => ["logs", "--tail=100"]
  }

  /** The command an argument vector runs, read back from the word after `-f <file>`. */
  function CommandOfArgs(args: seq<string>): Option<Command>
  {
    if |args| >= 3 && args[0] == "-f" then ParseCommand(args[2]) else None
  }

  /** The argument vector of a command names the file and determines the command. */
  lemma ArgsDetermineCommand(filePath: string, c: Command)
    ensures var args := ["-f", filePath] + Suffix(c);
      args[1] == filePath && CommandOfArgs(args) == Some(c)
  {
    ParseName(c);
  }

  /**
   * The `switch` of `executeComposeCommand`: `-f <file>` followed by the command's
   * fixed words, or the rejection of an unknown command.
   */
  method BuildArgs(filePath: string, command: string) returns (r: Result<seq<string>>)
    ensures r.Err? <==> command !in AllowedCommands
    ensures r.Err? ==> r.error == "Unknown command: " + command
    ensures r.Ok? ==> r.value == ["-f", filePath] + Suffix(ParseCommand(command).value)
  {
    var args := ["-f", filePath];
    if command == "up" {
      args := args + ["up", "-d"];
    } else if command == "down" {
      args := args + ["down"];
    } else if command == "build" {
      args := args + ["build"];
    } else if command == "ps" {
      args := args + ["ps"];
    } else if command == "logs" {
      args := args + ["logs", "--tail=100"];
    } else {
      return Err("Unknown command: " + command);
    }
    return Ok(args);
  }

  /** The process invocation: program, arguments and working directory. */
  datatype Spawn = Spawn(program: string, args: seq<string>, cwd: string)

  /** Which event settled the child process first. */
  datatype ProcessOutcome =
    | Closed(code: Option<int>, stdout: string, stderr: string)
    | SpawnFailed(message: string)
    | TimedOut

  datatype CommandResult = CommandResult(success: bool, exitCode: Option<int>, stdout: string, stderr: string, commandLine: string)

  /** Whether a process was started, and what the call resolved to or rejected with. */
  datatype Execution = Execution(spawned: Option<Spawn>, result: Result<CommandResult>)

  /**
   * The command line that is reported: the program and its arguments joined by
   * spaces. When no argument contains a space, splitting the line at spaces gives
   * back the program and the argument vector.
   */
  function CommandLine(args: seq<string>): (line: string)
    ensures |line| > |Program| && line[..|Program| + 1] == Program + " "
    ensures args != [] && (forall k :: 0 <= k < |args| ==> ' ' !in args[k]) ==> Split(line, ' ') == [Program] + args
  {
    var line := Program + " " + JoinWith(args, ' ');
    if args != [] && (forall k :: 0 <= k < |args| ==> ' ' !in args[k]) then
      JoinWithCons(Program, args, ' ');
      SplitJoin([Program] + args, ' ');
      line
    else
      line
  }

  /**
   * `executeComposeCommand`: rejects an unknown command before anything is spawned;
   * otherwise spawns the CLI in the file's directory and settles with the first
   * outcome of the process.
   */
  method ExecuteComposeCommand(filePath: string, command: string, outcome: ProcessOutcome) returns (ex: Execution)
    ensures ex.spawned.None? <==> command !in AllowedCommands
    ensures ex.spawned.None? ==> ex.result == Err("Unknown command: " + command)
    ensures ex.spawned.Some? ==>
      ex.spawned.value == Spawn(Program, ["-f", filePath] + Suffix(ParseCommand(command).value), Dirname(filePath))
    ensures ex.spawned.Some? && outcome.Closed? ==>
      ex.result == Ok(CommandResult(outcome.code == Some(0), outcome.code, outcome.stdout, outcome.stderr,
                                    CommandLine(ex.spawned.value.args)))
    ensures ex.spawned.Some? && outcome.SpawnFailed? ==> ex.result == Err("Failed to execute command: " + outcome.message)
    ensures ex.spawned.Some? && outcome.TimedOut? ==> ex.result == Err(TimeoutMessage)
    ensures ex.result.Ok? ==> (ex.result.value.success <==> ex.result.value.exitCode == Some(0))
  {
    var args := BuildArgs(filePath, command);
    if args.Err? {
      return Execution(None, Err(args.error));
    }
    var process := Spawn(Program, args.value, Dirname(filePath));
    match outcome {
      case Closed(code, stdout, stderr) =>
        ex := Execution(Some(process), Ok(CommandResult(code == Some(0), code, stdout, stderr, CommandLine(args.value))));
      case SpawnFailed(message) =>
        ex := Execution(Some(process), Err("Failed to execute command: " + message));
      case TimedOut =>
        ex := Execution(Some(process), Err(TimeoutMessage));
    }
  }
}

=== FILE: compose_parser.dfy ===
/**
 * `parseComposeFile`: the normalisation of a loaded compose document into a list of
 * services with canonical ports, volumes and environment, plus the top-level
 * network and volume names.
 *
 * The YAML loader is outside the model: a document arrives as the value it
 * loaded to (`Yaml`), as `undefined` for an empty document, or as the loader's
 * error. JavaScript `undefined` is `None` wherever a property may be missing.
 */
module ComposeParser {
  import opened Wrappers
  import PathText

  /** A loaded YAML value (numbers are integers). */
  datatype Yaml =
    | YNull
    | YBool(b: bool)
    | YInt(i: int)
    | YStr(s: string)
    | YList(items: seq<Yaml>)
    | YMap(entries: seq<(string, Yaml)>)

  /** JavaScript truthiness of a value that may be `undefined`. */
  predicate Truthy(v: Option<Yaml>)
  {
    match v
    case None => false
    case Some(YNull) => false
    case Some(YBool(b)) => b
    case Some(YInt(i)) => i != 0
    case Some(YStr(s)) => s != ""
    case Some(_) => true
  }

  /** The falsy values are exactly `undefined`, `null`, `false`, `0` and the empty string. */
  lemma FalsyValues(v: Option<Yaml>)
    ensures !Truthy(v) <==>
      v == None || v == Some(YNull) || v == Some(YBool(false)) || v == Some(YInt(0)) || v == Some(YStr(""))
  {
  }

  /** `a || b`: the left operand when it is truthy, the right one otherwise. */
  function Or(a: Option<Yaml>, b: Option<Yaml>): (r: Option<Yaml>)
    ensures r == a || r == b
    ensures Truthy(a) ==> r == a
    ensures Truthy(r) <==> Truthy(a) || Truthy(b)
  {
    if Truthy(a) then a else b
  }

  /** `v || null`: a falsy or missing value becomes `null`. */
  function OrNull(v: Option<Yaml>): (r: Yaml)
    ensures Truthy(v) ==> r == v.value
    ensures !Truthy(v) ==> r == YNull
    ensures Truthy(Some(r)) ==> v == Some(r)
  {
    if Truthy(v) then v.value else YNull
  }

  /** `v || []`: a falsy or missing value becomes the empty list. */
  function OrEmpty(v: Option<Yaml>): (r: Yaml)
    ensures Truthy(v) ==> r == v.value
    ensures !Truthy(v) ==> r == YList([])
  {
    if Truthy(v) then v.value else YList([])
  }

  /** The value of the first entry named `key`. */
  function Lookup(entries: seq<(string, Yaml)>, key: string): (r: Option<Yaml>)
    ensures r.None? <==> forall k :: 0 <= k < |entries| ==> entries[k].0 != key
    ensures r.Some? ==> exists k :: 0 <= k < |entries| && entries[k] == (key, r.value)
                                    && forall j :: 0 <= j < k ==> entries[j].0 != key
  {
    if entries == [] then None
    else if entries[0].0 == key then Some(entries[0].1)
    else
      var r := Lookup(entries[1..], key);
      assert forall k :: 1 <= k < |entries| ==> entries[k] == entries[1..][k - 1];
      if r.Some? then
        var k :| 0 <= k < |entries[1..]| && entries[1..][k] == (key, r.value)
                 && forall j :: 0 <= j < k ==> entries[1..][j].0 != key;
        assert entries[k + 1] == (key, r.value) && forall j :: 0 <= j < k + 1 ==> entries[j].0 != key;
        r
      else r
  }

  /** `v.key` on a value that is not null: a mapping's entry, and `undefined` on anything else. */
  function Get(v: Yaml, key: string): Option<Yaml>
  {
    if v.YMap? then Lookup(v.entries, key) else None
  }

  /** `parsed?.key`: `undefined` when the document itself is undefined or null. */
  function Field(doc: Option<Yaml>, key: string): Option<Yaml>
  {
    if doc.None? || doc.value.YNull? then None else Get(doc.value, key)
  }

  /** A decimal digit character. */
  predicate IsDigit(ch: char)
  {
    '0' <= ch <= '9'
  }

  /** The decimal digit character for `d`. */
  function Digit(d: nat): (ch: char)
    requires d < 10
    ensures IsDigit(ch) && ch as int - '0' as int == d
  {
    ('0' as int + d) as char
  }

  /** The decimal rendering of a natural number. */
  function NatToString(n: nat): (s: string)
    ensures |s| >= 1
    ensures forall k :: 0 <= k < |s| ==> IsDigit(s[k])
  {
    if n < 10 then [Digit(n)] else NatToString(n / 10) + [Digit(n % 10)]
  }

  /** The value of a string of decimal digits. */
  function DecimalValue(s: string): nat
    requires forall k :: 0 <= k < |s| ==> IsDigit(s[k])
  {
    if s == [] then 0
    else
      assert IsDigit(s[|s| - 1]);
      10 * DecimalValue(s[..|s| - 1]) + (s[|s| - 1] as int - '0' as int)
  }

  /** Rendering a number and reading the digits back gives the number. */
  lemma {:induction false} DecimalRoundTrip(n: nat)
    ensures DecimalValue(NatToString(n)) == n
  {
    var s := NatToString(n);
    if n >= 10 {
      var q, d := n / 10, n % 10;
      DecimalRoundTrip(q);
      assert s == NatToString(q) + [Digit(d)];
      assert s[..|s| - 1] == NatToString(q);
      assert DecimalValue(s) == 10 * q + d;
    } else {
      assert s == [Digit(n)];
      assert s[..0] == [];
    }
  }

  /** `String(i)` for an integer. */
  function IntToString(i: int): string
  {
    if i < 0 then "-" + NatToString(-i) else NatToString(i)
  }

  /** `String(v)` and `${v}` for a loaded value. */
  function Show(v: Yaml): (r: string)
    ensures v.YStr? ==> r == v.s
    ensures v.YInt? && v.i >= 0 ==> (forall k :: 0 <= k < |r| ==> IsDigit(r[k])) && DecimalValue(r) == v.i
    ensures v.YInt? && v.i < 0 ==>
      && |r| >= 2 && r[0] == '-'
      && (forall k :: 0 <= k < |r[1..]| ==> IsDigit(r[1..][k]))
      && DecimalValue(r[1..]) == -v.i
    decreases v
  {
    match v
    case YNull => "null"
    case YBool(b) => if b then "true" else "false"
    case YInt(i) =>
      DecimalRoundTrip(if i < 0 then -i else i);
      IntToString(i)
    case YStr(s) => s
    case YList(items) => JoinItems(items)
    case YMap(_) => "[object Object]"
  }

  /** `Array.prototype.join(",")`, which renders null elements as the empty string. */
  function JoinItems(items: seq<Yaml>): string
    decreases items
  {
    if items == [] then ""
    else
      (if items[0].YNull? then "" else Show(items[0]))
      + (if |items| == 1 then "" else "," + JoinItems(items[1..]))
  }

  /** `String(v)` and `${v}` for a value that may be `undefined`. */
  function Stringify(v: Option<Yaml>): (r: string)
    ensures v.None? ==> r == "undefined"
    ensures v == Some(YNull) ==> r == "null"
    ensures v.Some? && v.value.YStr? ==> r == v.value.s
  {
    match v
    case None => "undefined"
    case Some(y) => Show(y)
  }

  /** `Object.entries(v)`: a mapping's entries, an array's or a string's indexed elements, nothing for other values. */
  function ObjectEntries(v: Yaml): (r: seq<(string, Yaml)>)
    ensures v.YMap? ==> r == v.entries
    ensures v.YList? ==> |r| == |v.items| && forall k :: 0 <= k < |r| ==> r[k] == (NatToString(k), v.items[k])
    ensures v.YStr? ==> |r| == |v.s| && forall k :: 0 <= k < |r| ==> r[k] == (NatToString(k), YStr([v.s[k]]))
    ensures !(v.YMap? || v.YList? || v.YStr?) ==> r == []
  {
    match v
    case YMap(entries) => entries
    case YList(items) => seq(|items|, k requires 0 <= k < |items| => (NatToString(k), items[k]))
    case YStr(s) => seq(|s|, k requires 0 <= k < |s| => (NatToString(k), YStr([s[k]])))
    case _ => []
  }

  /** `Object.keys(v)`. */
  function ObjectKeys(v: Yaml): (r: seq<string>)
    ensures |r| == |ObjectEntries(v)|
    ensures forall k :: 0 <= k < |r| ==> r[k] == ObjectEntries(v)[k].0
  {
    var entries := ObjectEntries(v);
    seq(|entries|, k requires 0 <= k < |entries| => entries[k].0)
  }

  /** The TypeError message for reading a property of null. */
  function ReadOfNull(key: string): string
  {
    "Cannot read properties of null (reading '" + key + "')"
  }

  /** The canonical `host:container` string of one `ports` entry. */
  function NormalizePort(p: Yaml): (r: Result<string>)
    ensures p.YStr? ==> r == Ok(p.s)
    ensures r.Err? <==> p.YNull?
    ensures p.YNull? ==> r == Err(ReadOfNull("published"))
    ensures (p.YMap? || p.YList?) ==>
      r == Ok(Stringify(Or(Get(p, "published"), Get(p, "host"))) + ":" + Stringify(Or(Get(p, "target"), Get(p, "container"))))
    ensures (p.YBool? || p.YInt?) ==> r == Ok(Show(p))
  {
    match p
    case YStr(s) => Ok(s)
    case YNull => Err(ReadOfNull("published"))
    case YList(_) => Ok(Stringify(Or(Get(p, "published"), Get(p, "host"))) + ":" + Stringify(Or(Get(p, "target"), Get(p, "container"))))
    case YMap(_) => Ok(Stringify(Or(Get(p, "published"), Get(p, "host"))) + ":" + Stringify(Or(Get(p, "target"), Get(p, "container"))))
    case _ => Ok(Show(p))
  }

  /** The canonical `source:target` string of one `volumes` entry. */
  function NormalizeVolume(v: Yaml): (r: Result<string>)
    ensures v.YStr? ==> r == Ok(v.s)
    ensures r.Err? <==> v.YNull?
    ensures v.YNull? ==> r == Err(ReadOfNull("source"))
    ensures (v.YMap? || v.YList?) ==> r == Ok(Stringify(Get(v, "source")) + ":" + Stringify(Get(v, "target")))
    ensures (v.YBool? || v.YInt?) ==> r == Ok(Show(v))
  {
    match v
    case YStr(s) => Ok(s)
    case YNull => Err(ReadOfNull("source"))
    case YList(_) => Ok(Stringify(Get(v, "source")) + ":" + Stringify(Get(v, "target")))
    case YMap(_) => Ok(Stringify(Get(v, "source")) + ":" + Stringify(Get(v, "target")))
    case _ => Ok(Show(v))
  }

  /** One `KEY=VALUE` string of a mapping-form `environment`. */
  function EnvEntry(entry: (string, Yaml)): Yaml
  {
    YStr(entry.0 + "=" + Show(entry.1))
  }

  /** The `environment` of a service: a list passes through, a mapping becomes `KEY=VALUE` strings, anything else gives none. */
  function NormalizeEnvironment(env: Option<Yaml>): (r: seq<Yaml>)
    ensures !Truthy(env) ==> r == []
    ensures env.Some? && env.value.YList? ==> r == env.value.items
    ensures env.Some? && env.value.YMap? ==>
      (|r| == |env.value.entries| && forall k :: 0 <= k < |r| ==> r[k] == EnvEntry(env.value.entries[k]))
    ensures env.Some? && !(env.value.YList? || env.value.YMap?) ==> r == []
  {
    if !Truthy(env) then []
    else match env.value
      case YList(items) => items
      case YMap(entries) => EnvEntries(entries)
      case _ => []
  }

  /** `Object.entries(env).map(([k, v]) => `${k}=${v}`)`. */
  function EnvEntries(entries: seq<(string, Yaml)>): (r: seq<Yaml>)
    ensures |r| == |entries| && forall k :: 0 <= k < |r| ==> r[k] == EnvEntry(entries[k])
  {
    seq(|entries|, k requires 0 <= k < |entries| => EnvEntry(entries[k]))
  }

  /**
   * `xs.map(f)` where `f` may throw: the mapped list, or the error of the first
   * element that throws.
   */
  function MapAll<X, Y>(xs: seq<X>, f: X -> Result<Y>): (r: Result<seq<Y>>)
    ensures r.Ok? <==> forall k :: 0 <= k < |xs| ==> f(xs[k]).Ok?
    ensures r.Ok? ==> |r.value| == |xs| && forall k :: 0 <= k < |xs| ==> f(xs[k]) == Ok(r.value[k])
    ensures r.Err? ==> exists k :: 0 <= k < |xs| && f(xs[k]) == Err(r.error) && forall j :: 0 <= j < k ==> f(xs[j]).Ok?
    decreases |xs|
  {
    if xs == [] then Ok([])
    else
      var n := |xs| - 1;
      var prefix := xs[..n];
      assert forall k :: 0 <= k < n ==> xs[k] == prefix[k];
      match MapAll(prefix, f)
      case Err(e) => Err(e)
      case Ok(ys) =>
        match f(xs[n])
        case Err(e) => Err(e)
        case Ok(y) => Ok(ys + [y])
  }

  /** Once an element throws, mapping a longer list throws the same error. */
  lemma {:induction false} MapAllStopsAtError<X, Y>(xs: seq<X>, n: nat, f: X -> Result<Y>)
    requires n <= |xs| && MapAll(xs[..n], f).Err?
    ensures MapAll(xs, f) == MapAll(xs[..n], f)
    decreases |xs| - n
  {
    if n < |xs| {
      var longer := xs[..n + 1];
      assert longer[..|longer| - 1] == xs[..n];
      assert MapAll(longer, f) == MapAll(xs[..n], f);
      MapAllStopsAtError(xs, n + 1, f);
    } else {
      assert xs[..n] == xs;
    }
  }

  /** `config.<key>.map(f)` guarded by `if (config.<key>)`: a falsy field gives none, a non-array throws. */
  function MapField(config: Yaml, key: string, f: Yaml -> Result<string>): (r: Result<seq<string>>)
    ensures !Truthy(Get(config, key)) ==> r == Ok([])
    ensures Truthy(Get(config, key)) && !Get(config, key).value.YList? ==> r == Err("config." + key + ".map is not a function")
    ensures Truthy(Get(config, key)) && Get(config, key).value.YList? ==> r == MapAll(Get(config, key).value.items, f)
  {
    var v := Get(config, key);
    if !Truthy(v) then Ok([])
    else if v.value.YList? then MapAll(v.value.items, f)
    else Err("config." + key + ".map is not a function")
  }

  /** A normalised service. */
  datatype Service = Service(
    name: string,
    image: Yaml,
    build: Yaml,
    ports: seq<string>,
    volumes: seq<string>,
    environment: seq<Yaml>,
    dependsOn: Yaml,
    networks: Yaml,
    command: Yaml,
    restart: Yaml)

  /** A field is kept when it is truthy and replaced by its default otherwise. */
  predicate Defaulted(field: Option<Yaml>, value: Yaml, fallback: Yaml)
  {
    if Truthy(field) then field == Some(value) else value == fallback
  }

  /** The service built from one `[name, config]` entry of `services`. */
  function ServiceOf(entry: (string, Yaml)): (r: Result<Service>)
    ensures r.Err? <==> entry.1.YNull? || MapField(entry.1, "ports", NormalizePort).Err?
                        || MapField(entry.1, "volumes", NormalizeVolume).Err?
    ensures entry.1.YNull? ==> r == Err(ReadOfNull("image"))
    ensures !entry.1.YNull? && MapField(entry.1, "ports", NormalizePort).Err? ==>
      r == Err(MapField(entry.1, "ports", NormalizePort).error)
    ensures !entry.1.YNull? && MapField(entry.1, "ports", NormalizePort).Ok?
            && MapField(entry.1, "volumes", NormalizeVolume).Err? ==>
      r == Err(MapField(entry.1, "volumes", NormalizeVolume).error)
    ensures r.Ok? ==> r.value.name == entry.0
    ensures r.Ok? ==> MapField(entry.1, "ports", NormalizePort) == Ok(r.value.ports)
                      && MapField(entry.1, "volumes", NormalizeVolume) == Ok(r.value.volumes)
    ensures r.Ok? ==> r.value.environment == NormalizeEnvironment(Get(entry.1, "environment"))
    ensures r.Ok? ==>
      && Defaulted(Get(entry.1, "image"), r.value.image, YNull)
      && Defaulted(Get(entry.1, "build"), r.value.build, YNull)
      && Defaulted(Get(entry.1, "depends_on"), r.value.dependsOn, YList([]))
      && Defaulted(Get(entry.1, "networks"), r.value.networks, YList([]))
      && Defaulted(Get(entry.1, "command"), r.value.command, YNull)
      && Defaulted(Get(entry.1, "restart"), r.value.restart, YNull)
  {
    var (name, config) := entry;
    if config.YNull? then Err(ReadOfNull("image"))
    else
      match MapField(config, "ports", NormalizePort)
      case Err(e) => Err(e)
      case Ok(ports) =>
        match MapField(config, "volumes", NormalizeVolume)
        case Err(e) => Err(e)
        case Ok(volumes) =>
          Ok(Service(
            name,
            OrNull(Get(config, "image")),
            OrNull(Get(config, "build")),
            ports,
            volumes,
            NormalizeEnvironment(Get(config, "environment")),
            OrEmpty(Get(config, "depends_on")),
            OrEmpty(Get(config, "networks")),
            OrNull(Get(config, "command")),
            OrNull(Get(config, "restart"))))
  }

  /** What `yaml.load` made of the file's text: a value (None for an empty document), or its error. */
  datatype YamlDoc = Loaded(value: Option<Yaml>) | Malformed(message: string)

  /** What `fs.readFile` finds at a path. */
  datatype FileState = Readable(content: string, doc: YamlDoc) | ReadError(message: string)

  /** The parse result: version, services, top-level network and volume names, and the raw text. */
  datatype ComposeDetails = ComposeDetails(
    version: Yaml,
    services: seq<Service>,
    networks: seq<string>,
    volumes: seq<string>,
    raw: string)

  const ParseErrorPrefix: string := "Failed to parse compose file: "

  /** The file at a path; a path that is not on disk cannot be read. */
  function ReadFile(disk: map<string, FileState>, path: string): FileState
  {
    if path in disk then disk[path] else ReadError("ENOENT: no such file or directory, open '" + path + "'")
  }

  /** `Object.entries(parsed.services)` when `parsed && parsed.services`, else nothing. */
  function ServiceEntries(doc: Option<Yaml>): seq<(string, Yaml)>
  {
    if Truthy(doc) && Truthy(Field(doc, "services")) then ObjectEntries(Field(doc, "services").value) else []
  }

  /** `parsed?.<key> ? Object.keys(parsed.<key>) : []`. */
  function TopLevelNames(doc: Option<Yaml>, key: string): seq<string>
  {
    if Truthy(Field(doc, key)) then ObjectKeys(Field(doc, key).value) else []
  }

  /** What `parseComposeFile` resolves to, or the message it rejects with. */
  function ParseSpec(state: FileState): (r: Result<ComposeDetails>)
    ensures r.Err? ==> ParseErrorPrefix <= r.error
    ensures state.ReadError? ==> r == Err(ParseErrorPrefix + state.message)
    ensures state.Readable? && state.doc.Malformed? ==> r == Err(ParseErrorPrefix + state.doc.message)
    ensures state.Readable? && state.doc.Loaded? && MapAll(ServiceEntries(state.doc.value), ServiceOf).Err? ==>
      r == Err(ParseErrorPrefix + MapAll(ServiceEntries(state.doc.value), ServiceOf).error)
    ensures r.Err? <==> state.ReadError? || state.doc.Malformed?
                        || exists k :: 0 <= k < |ServiceEntries(state.doc.value)| && ServiceOf(ServiceEntries(state.doc.value)[k]).Err?
    ensures r.Ok? ==> r.value.raw == state.content
    ensures r.Ok? ==> var entries := ServiceEntries(state.doc.value);
      && |r.value.services| == |entries|
      && (forall k :: 0 <= k < |entries| ==> ServiceOf(entries[k]) == Ok(r.value.services[k]))
      && (forall k :: 0 <= k < |entries| ==> r.value.services[k].name == entries[k].0)
    ensures r.Ok? ==> var doc := state.doc.value;
      && Defaulted(Field(doc, "version"), r.value.version, YNull)
      && (Truthy(Field(doc, "networks")) ==> r.value.networks == ObjectKeys(Field(doc, "networks").value))
      && (!Truthy(Field(doc, "networks")) ==> r.value.networks == [])
      && (Truthy(Field(doc, "volumes")) ==> r.value.volumes == ObjectKeys(Field(doc, "volumes").value))
      && (!Truthy(Field(doc, "volumes")) ==> r.value.volumes == [])
  {
    match state
    case ReadError(m) => Err(ParseErrorPrefix + m)
    case Readable(_, Malformed(m)) => Err(ParseErrorPrefix + m)
    case Readable(content, Loaded(doc)) =>
      match MapAll(ServiceEntries(doc), ServiceOf)
      case Err(m) => Err(ParseErrorPrefix + m)
      case Ok(services) =>
        Ok(ComposeDetails(OrNull(Field(doc, "version")), services,
                          TopLevelNames(doc, "networks"), TopLevelNames(doc, "volumes"), content))
  }

  /**
   * The `for (const [name, config] of ...)` loop of `parseComposeFile`: builds the
   * services in entry order and stops at the first entry that throws.
   */
  method BuildServices(entries: seq<(string, Yaml)>) returns (r: Result<seq<Service>>)
    ensures r == MapAll(entries, ServiceOf)
  {
    var services: seq<Service> := [];
    var i := 0;
    while i < |entries|
      invariant 0 <= i <= |entries|
      invariant MapAll(entries[..i], ServiceOf) == Ok(services)
    {
      assert entries[..i + 1][..i] == entries[..i];
      var service := ServiceOf(entries[i]);
      if service.Err? {
        MapAllStopsAtError(entries, i + 1, ServiceOf);
        return Err(service.error);
      }
      services := services + [service.value];
      i := i + 1;
    }
    assert entries[..i] == entries;
    return Ok(services);
  }

  /**
   * `parseComposeFile`: reads and loads the file, then builds the service list;
   * any failure is rethrown with the parse-error prefix.
   */
  method ParseComposeFile(disk: map<string, FileState>, filePath: string) returns (r: Result<ComposeDetails>)
    ensures r == ParseSpec(ReadFile(disk, filePath))
  {
    var state := ReadFile(disk, filePath);
    match state {
      case ReadError(m) =>
        return Err(ParseErrorPrefix + m);
      case Readable(content, Malformed(m)) =>
        return Err(ParseErrorPrefix + m);
      case Readable(content, Loaded(parsed)) =>
        var services := BuildServices(ServiceEntries(parsed));
        if services.Err? {
          return Err(ParseErrorPrefix + services.error);
        }
        r := Ok(ComposeDetails(OrNull(Field(parsed, "version")), services.value,
                               TopLevelNames(parsed, "networks"), TopLevelNames(parsed, "volumes"), content));
    }
  }

  /** A document without a truthy `services` field yields an empty service list, never an error. */
  lemma NoServicesIsEmpty(content: string, doc: Option<Yaml>)
    requires !Truthy(Field(doc, "services"))
    ensures ParseSpec(Readable(content, Loaded(doc))).Ok?
    ensures ParseSpec(Readable(content, Loaded(doc))).value.services == []
  {
  }

  /** Looking a key up in a one-entry mapping. */
  lemma LookupOne(k1: string, v1: Yaml, key: string)
    ensures Lookup([(k1, v1)], key) == if key == k1 then Some(v1) else None
  {
    assert [(k1, v1)][1..] == [];
  }

  /** Looking a key up in a two-entry mapping. */
  lemma LookupTwo(k1: string, v1: Yaml, k2: string, v2: Yaml, key: string)
    ensures Lookup([(k1, v1), (k2, v2)], key) == if key == k1 then Some(v1) else if key == k2 then Some(v2) else None
  {
    assert [(k1, v1), (k2, v2)][1..] == [(k2, v2)];
  }

  /** A long-form port with truthy `published` and `target` renders as `published:target`. */
  lemma LongPortRenders(published: Yaml, target: Yaml)
    requires Truthy(Some(published)) && Truthy(Some(target))
    ensures NormalizePort(YMap([("published", published), ("target", target)])) == Ok(Show(published) + ":" + Show(target))
    ensures NormalizePort(YMap([("host", published), ("container", target)])) == Ok(Show(published) + ":" + Show(target))
  {
    assert |"published"| != |"target"| && "published" != "host" && "published" != "container";
    assert "target" != "host" && |"target"| != |"container"|;
    LookupTwo("published", published, "target", target, "published");
    LookupTwo("published", published, "target", target, "target");
    LookupTwo("host", published, "container", target, "published");
    LookupTwo("host", published, "container", target, "host");
    LookupTwo("host", published, "container", target, "target");
    LookupTwo("host", published, "container", target, "container");
  }

  /** A long-form port with neither `published` nor `host` renders its missing side as the text `undefined`. */
  lemma LongPortWithoutPublished(target: nat)
    requires target > 0
    ensures NormalizePort(YMap([("target", YInt(target))])) == Ok("undefined:" + NatToString(target))
  {
    var p := YMap([("target", YInt(target))]);
    assert |"target"| != |"published"| && |"target"| != |"host"|;
    LookupOne("target", YInt(target), "published");
    LookupOne("target", YInt(target), "host");
    LookupOne("target", YInt(target), "target");
    LookupOne("target", YInt(target), "container");
    assert Stringify(Or(Get(p, "published"), Get(p, "host"))) == "undefined";
    assert Stringify(Or(Get(p, "target"), Get(p, "container"))) == NatToString(target);
    assert "undefined" + ":" + NatToString(target) == "undefined:" + NatToString(target);
  }

  /** A long-form port with positive numbers renders as `published:target`, from which both numbers can be read back. */
  lemma LongPortRoundTrip(published: nat, target: nat)
    requires published > 0 && target > 0
    ensures var r := NormalizePort(YMap([("published", YInt(published)), ("target", YInt(target))]));
      && r == Ok(NatToString(published) + ":" + NatToString(target))
      && PathText.Split(r.value, ':') == [NatToString(published), NatToString(target)]
      && DecimalValue(PathText.Split(r.value, ':')[0]) == published
      && DecimalValue(PathText.Split(r.value, ':')[1]) == target
  {
    LongPortRenders(YInt(published), YInt(target));
    var a, b := NatToString(published), NatToString(target);
    assert ':' !in a && ':' !in b;
    PathText.SplitPair(a, ':', b);
    assert a + ":" + b == a + [':'] + b;
    DecimalRoundTrip(published);
    DecimalRoundTrip(target);
  }

  /** A short-form port and the two long forms with the same numbers normalise to the same string. */
  lemma PortFormsAgree(published: nat, target: nat)
    requires published > 0 && target > 0
    ensures NormalizePort(YStr(NatToString(published) + ":" + NatToString(target)))
         == NormalizePort(YMap([("host", YInt(published)), ("container", YInt(target))]))
         == NormalizePort(YMap([("published", YInt(published)), ("target", YInt(target))]))
  {
    LongPortRenders(YInt(published), YInt(target));
  }

  /** A long-form volume renders as `source:target`, from which both paths can be read back. */
  lemma LongVolumeRoundTrip(source: string, target: string)
    requires ':' !in source && ':' !in target
    ensures var r := NormalizeVolume(YMap([("type", YStr("bind")), ("source", YStr(source)), ("target", YStr(target))]));
      && r == Ok(source + ":" + target)
      && PathText.Split(r.value, ':') == [source, target]
  {
    var m := YMap([("type", YStr("bind")), ("source", YStr(source)), ("target", YStr(target))]);
    assert "type" != "source" && |"type"| != |"target"| && "source"[0] != "target"[0];
    assert m.entries[1..] == [("source", YStr(source)), ("target", YStr(target))];
    assert m.entries[1..][1..] == [("target", YStr(target))];
    assert Lookup(m.entries[1..][1..], "target") == Some(YStr(target));
    assert Lookup(m.entries[1..], "target") == Some(YStr(target));
    assert Lookup(m.entries[1..], "source") == Some(YStr(source));
    assert Get(m, "source") == Some(YStr(source));
    assert Get(m, "target") == Some(YStr(target));
    PathText.SplitPair(source, ':', target);
    assert source + ":" + target == source + [':'] + target;
  }

  /** A mapping-form environment normalises to the same strings as its list form. */
  lemma EnvironmentFormsAgree(entries: seq<(string, Yaml)>)
    ensures NormalizeEnvironment(Some(YMap(entries))) == NormalizeEnvironment(Some(YList(EnvEntries(entries))))
    ensures forall k :: 0 <= k < |entries| && entries[k].1.YStr? ==>
      NormalizeEnvironment(Some(YMap(entries)))[k] == YStr(entries[k].0 + "=" + entries[k].1.s)
  {
  }
}

=== FILE: compose_routes.dfy ===
/**
 * The compose router: the in-memory catalogue of discovered files with its scan
 * time, the freshness rule of the listing route, and the id and command checks
 * of the per-file routes.
 */
module ComposeRoutes {
  import opened Wrappers
  import opened PathText
  import opened ComposeScanner
  import opened ComposeParser
  import opened ComposeCommand

  /** The names `composeService.js` exports. */
  const ServiceExports: set<string> := {"scanForComposeFiles", "parseComposeFile", "executeComposeCommand"}

  /** The names the router imports from `composeService.js`, in import order. */
  const RouterImports: seq<string> :=
    ["scanForComposeFiles", "parseComposeFile", "executeComposeCommand", "getContainerStatus"]

  /**
   * Linking a list of named imports against a module's exports: the first name the
   * module does not export, if any. ES module linking stops there with a `SyntaxError`
   * ("does not provide an export named ...") and the importing module never runs.
   */
  function FirstUnresolved(imports: seq<string>, exports: set<string>): (r: Option<string>)
    ensures r.None? <==> forall k :: 0 <= k < |imports| ==> imports[k] in exports
    ensures r.Some? ==> exists k ::
      && 0 <= k < |imports| && imports[k] == r.value && r.value !in exports
      && (forall j :: 0 <= j < k ==> imports[j] in exports)
    decreases |imports|
  {
    if imports == [] then None
    else if imports[0] !in exports then Some(imports[0])
    else
      var r := FirstUnresolved(imports[1..], exports);
      assert forall k :: 1 <= k < |imports| ==> imports[k] == imports[1..][k - 1];
      r
  }

  /** As written, the router imports a name the service does not export, so the router module cannot load. */
  lemma RouterImportUnresolved()
    ensures FirstUnresolved(RouterImports, ServiceExports) == Some("getContainerStatus")
  {
    assert RouterImports[3] !in ServiceExports;
    assert forall j :: 0 <= j < 3 ==> RouterImports[j] in ServiceExports;
  }

  /** The service's exports with the status query the router calls. */
  const StatusServiceExports: set<string> := ServiceExports + {"getContainerStatus"}

  /** With the status query exported, every import of the router resolves. */
  lemma RouterImportResolves()
    ensures FirstUnresolved(RouterImports, StatusServiceExports) == None
  {
    assert forall k :: 0 <= k < |RouterImports| ==> RouterImports[k] in StatusServiceExports;
  }

  /** How long a non-empty listing is served from memory, in milliseconds. */
  const CacheTtlMs: int := 5 * 60 * 1000

  const FileNotFound: string := "File not found"
  const InvalidCommand: string := "Invalid command. Allowed: up, down, build, ps, logs"
  const ParseFailed: string := "Failed to parse compose file"
  const CommandFailed: string := "Failed to execute command"
  const StatusFailed: string := "Failed to get container status"
  /** The TypeError raised by `file.path` when the looked-up entry is `undefined`. */
  const ReadPathOfUndefined: string := "Cannot read properties of undefined (reading 'path')"

  /**
   * The age of the cache: `None` stands for `Infinity`, which is what a missing
   * scan time gives, and also a scan time of 0, which JavaScript reads as false.
   */
  function CacheAge(lastScanTime: Option<int>, now: int): (r: Option<int>)
    ensures r.None? <==> lastScanTime.None? || lastScanTime.value == 0
    ensures r.Some? ==> lastScanTime.value + r.value == now
  {
    if lastScanTime.None? || lastScanTime.value == 0 then None else Some(now - lastScanTime.value)
  }

  /**
   * Whether the listing route answers from memory instead of scanning: exactly when
   * there was a scan at a non-zero time less than the time-to-live ago that found
   * something, and no refresh was asked for.
   */
  function ServeFromCache(forceRefresh: bool, lastScanTime: Option<int>, now: int, cached: nat): (serve: bool)
    ensures serve <==>
      && !forceRefresh
      && lastScanTime.Some? && lastScanTime.value != 0
      && now < lastScanTime.value + CacheTtlMs
      && cached > 0
  {
    var age := CacheAge(lastScanTime, now);
    !forceRefresh && age.Some? && age.value < CacheTtlMs && cached > 0
  }

  /** `body` starts with exactly `n` digits: they are digits, and what follows them is not. */
  predicate LeadingDigits(body: string, n: nat)
  {
    n <= |body| && (forall k :: 0 <= k < n ==> IsDigit(body[k])) && (n == |body| || !IsDigit(body[n]))
  }

  /** The digit run is the only way to split off leading digits. */
  lemma LeadingDigitsUnique(body: string, n: nat)
    requires LeadingDigits(body, n)
    ensures n == DigitRun(body)
  {
  }

  /** Whether `t` starts with a sign character. */
  predicate Signed(t: string)
  {
    |t| > 0 && (t[0] == '-' || t[0] == '+')
  }

  /** `t` without its leading sign, if it has one. */
  function AfterSign(t: string): (body: string)
    ensures Signed(t) ==> body == t[1..]
    ensures !Signed(t) ==> body == t
  {
    if Signed(t) then t[1..] else t
  }

  /** The value of the first `n` digits after the sign of `t`, negated when the sign is `-`. */
  function SignedValue(t: string, n: nat): int
    requires LeadingDigits(AfterSign(t), n)
  {
    var v: int := DecimalValue(AfterSign(t)[..n]);
    if Signed(t) && t[0] == '-' then -v else v
  }

  /** The number at the start of `t`: an optional sign, then digits; `None` when no digit follows the sign. */
  function ReadSigned(t: string): (r: Option<int>)
    ensures r.None? <==> AfterSign(t) == [] || !IsDigit(AfterSign(t)[0])
    ensures forall n: nat :: n > 0 && LeadingDigits(AfterSign(t), n) ==> r == Some(SignedValue(t, n))
  {
    var body := AfterSign(t);
    var n := DigitRun(body);
    if n == 0 then None
    else
      assert forall m: nat :: LeadingDigits(body, m) ==> m == n by {
        forall m: nat | LeadingDigits(body, m) {
          LeadingDigitsUnique(body, m);
        }
      }
      Some(SignedValue(t, n))
  }

  /**
   * `parseInt(s, 10)`, with `None` standing for `NaN`: leading white space and one
   * sign are skipped, the result is `NaN` exactly when no digit follows them, and
   * otherwise it is the signed value of the digits that follow.
   */
  function ParseId(s: string): (r: Option<int>)
    ensures var body := AfterSign(TrimStart(s));
      && (r.None? <==> body == [] || !IsDigit(body[0]))
      && forall n: nat :: n > 0 && LeadingDigits(body, n) ==> r == Some(SignedValue(TrimStart(s), n))
  {
    ReadSigned(TrimStart(s))
  }

  /** The length of the run of decimal digits at the start of `s`. */
  function DigitRun(s: string): (r: nat)
    ensures r <= |s|
    ensures forall k :: 0 <= k < r ==> IsDigit(s[k])
    ensures r < |s| ==> !IsDigit(s[r])
  {
    if s == [] || !IsDigit(s[0]) then 0 else 1 + DigitRun(s[1..])
  }

  /** The digit run of digits followed by a non-digit is exactly the digits. */
  lemma {:induction false} DigitRunOfDigits(digits: string, tail: string)
    requires forall k :: 0 <= k < |digits| ==> IsDigit(digits[k])
    requires tail == [] || !IsDigit(tail[0])
    ensures DigitRun(digits + tail) == |digits|
    decreases |digits|
  {
    if digits != [] {
      assert (digits + tail)[1..] == digits[1..] + tail;
      DigitRunOfDigits(digits[1..], tail);
    }
  }

  /** A string that starts with a digit is read as the value of its leading digits. */
  lemma ParseIdOfUnsigned(s: string)
    requires |s| > 0 && IsDigit(s[0])
    ensures ParseId(s) == Some(DecimalValue(s[..DigitRun(s)]) as int)
  {
    assert !IsJsSpace(s[0]);
    assert TrimStart(s) == s;
    assert !Signed(s) && AfterSign(s) == s;
    var n := DigitRun(s);
    assert LeadingDigits(s, n);
    assert SignedValue(s, n) == DecimalValue(s[..n]);
  }

  /**
   * An id the client renders in decimal is read back as that number, whatever
   * follows it that is not a digit (`"3"`, `"3abc"` and `"3.5"` all name entry 3).
   */
  lemma ParseIdOfDecimal(n: nat, tail: string)
    requires tail == [] || !IsDigit(tail[0])
    ensures ParseId(NatToString(n) + tail) == Some(n)
  {
    var digits := NatToString(n);
    var s := digits + tail;
    ParseIdOfUnsigned(s);
    DigitRunOfDigits(digits, tail);
    assert s[..|digits|] == digits;
    DecimalRoundTrip(n);
  }

  /** A string without any digit is `NaN`. */
  lemma ParseIdWithoutDigits(s: string)
    requires forall k :: 0 <= k < |s| ==> !IsDigit(s[k])
    ensures ParseId(s) == None
  {
    var t := TrimStart(s);
    assert t == s[|s| - |t|..];
    var body := if |t| > 0 && (t[0] == '-' || t[0] == '+') then t[1..] else t;
    assert body == [] || body[0] == s[|s| - |body|];
  }

  /** Where the bounds check `fileId < 0 || fileId >= length` leads. */
  datatype Slot = Missing | Undefined | At(index: nat)

  function Locate(id: Option<int>, count: nat): (r: Slot)
    ensures r.Missing? <==> id.Some? && (id.value < 0 || id.value >= count)
    ensures r.Undefined? <==> id.None?
    ensures r.At? ==> id == Some(r.index) && r.index < count
  {
    match id
    case None => Undefined
    case Some(i) => if i < 0 || i >= count then Missing else At(i)
  }

  /** A route's answer: the JSON body of a 200, or the status and error body of a failure. */
  datatype Response<T> =
    | Success(body: T)
    | BadRequest(error: string)
    | NotFound(error: string)
    | ServerError(error: string, details: Option<string>)

  datatype FilesBody = FilesBody(files: seq<ComposeFileRef>, cached: bool, lastScan: Option<int>)
  datatype DetailsBody = DetailsBody(file: ComposeFileRef, details: ComposeDetails)
  datatype CommandBody = CommandBody(file: ComposeFileRef, command: string, result: CommandResult)

  /** The router's in-memory catalogue: the last scan's files and when that scan ran. */
  class Catalog {
    var files: seq<ComposeFileRef>
    var lastScanTime: Option<int>

    /** The catalogue only ever holds a scan's output: numbered by position, and well formed. */
    ghost predicate Valid()
      reads this
    {
      && DenseIds(files)
      && (forall i :: 0 <= i < |files| ==> WellFormed(files[i].file))
    }

    /** The state at module load: nothing cached, never scanned. */
    constructor ()
      ensures files == [] && lastScanTime == None
      ensures Valid()
    {
      files := [];
      lastScanTime := None;
    }

    /**
     * `GET /files`: answers from memory when the freshness rule allows it, and
     * otherwise rescans, replaces the catalogue and records the time. The clock is
     * read twice: `now` before the freshness test, `scanDone` once the scan is over.
     */
    method ListFiles(refresh: Option<string>, now: int, scanDone: int, env: Option<string>, fs: map<string, Node>)
      returns (resp: FilesBody)
      requires Valid()
      modifies this
      ensures Valid()
      ensures ServeFromCache(refresh == Some("true"), old(lastScanTime), now, |old(files)|) ==>
        && resp == FilesBody(old(files), true, old(lastScanTime))
        && files == old(files) && lastScanTime == old(lastScanTime)
      ensures !ServeFromCache(refresh == Some("true"), old(lastScanTime), now, |old(files)|) ==>
        && files == Number(RootsSpec(ScanRoots(env), fs))
        && lastScanTime == Some(scanDone)
        && resp == FilesBody(files, false, Some(scanDone))
    {
      var forceRefresh := refresh == Some("true");
      if ServeFromCache(forceRefresh, lastScanTime, now, |files|) {
        return FilesBody(files, true, lastScanTime);
      }
      var scanned := ScanForComposeFiles(env, fs);
      files := scanned;
      lastScanTime := Some(scanDone);
      resp := FilesBody(scanned, false, Some(scanDone));
    }

    /**
     * `GET /files/:id/details`: the entry the id names, with its parsed content.
     * The container status the route adds would come from `getContainerStatus`,
     * which the service does not define.
     */
    method Details(rawId: string, disk: map<string, FileState>) returns (resp: Response<DetailsBody>)
      ensures Locate(ParseId(rawId), |files|).Missing? ==> resp == NotFound(FileNotFound)
      ensures Locate(ParseId(rawId), |files|).Undefined? ==> resp == ServerError(ParseFailed, None)
      ensures Locate(ParseId(rawId), |files|).At? ==>
        var file := files[Locate(ParseId(rawId), |files|).index];
        var parsed := ParseSpec(ReadFile(disk, file.file.path));
        resp == if parsed.Ok? then Success(DetailsBody(file, parsed.value)) else ServerError(ParseFailed, None)
    {
      var slot := Locate(ParseId(rawId), |files|);
      match slot {
        case Missing =>
          resp := NotFound(FileNotFound);
        case Undefined =>
          resp := ServerError(ParseFailed, None);
        case At(i) =>
          var file := files[i];
          var parsed := ParseComposeFile(disk, file.file.path);
          if parsed.Ok? {
            resp := Success(DetailsBody(file, parsed.value));
          } else {
            resp := ServerError(ParseFailed, None);
          }
      }
    }

    /**
     * `GET /files/:id/status`: the entry whose containers are queried. The status
     * query itself, `getContainerStatus`, is not defined by the service.
     */
    method Status(rawId: string) returns (resp: Response<ComposeFileRef>)
      ensures Locate(ParseId(rawId), |files|).Missing? ==> resp == NotFound(FileNotFound)
      ensures Locate(ParseId(rawId), |files|).Undefined? ==> resp == ServerError(StatusFailed, None)
      ensures Locate(ParseId(rawId), |files|).At? ==> resp == Success(files[Locate(ParseId(rawId), |files|).index])
    {
      var slot := Locate(ParseId(rawId), |files|);
      match slot {
        case Missing =>
          resp := NotFound(FileNotFound);
        case Undefined =>
          resp := ServerError(StatusFailed, None);
        case At(i) =>
          resp := Success(files[i]);
      }
    }

    /**
     * `POST /files/:id/command`: the command is checked against the allow-list
     * before the id is looked up, and nothing is spawned unless both pass. The
     * process runs in the directory the scan found the file in.
     */
    method RunCommand(rawId: string, command: Option<string>, outcome: ProcessOutcome)
      returns (resp: Response<CommandBody>, spawned: Option<Spawn>)
      requires Valid()
      ensures command.None? || command.value !in AllowedCommands ==>
        resp == BadRequest(InvalidCommand) && spawned == None
      ensures command.Some? && command.value in AllowedCommands && Locate(ParseId(rawId), |files|).Missing? ==>
        resp == NotFound(FileNotFound) && spawned == None
      ensures command.Some? && command.value in AllowedCommands && Locate(ParseId(rawId), |files|).Undefined? ==>
        resp == ServerError(CommandFailed, Some(ReadPathOfUndefined)) && spawned == None
      ensures command.Some? && command.value in AllowedCommands && Locate(ParseId(rawId), |files|).At? ==>
        var file := files[Locate(ParseId(rawId), |files|).index];
        var args := ["-f", file.file.path] + Suffix(ParseCommand(command.value).value);
        && spawned == Some(Spawn(Program, args, file.file.directory))
        && (outcome.Closed? ==>
              resp == Success(CommandBody(file, command.value,
                CommandResult(outcome.code == Some(0), outcome.code, outcome.stdout, outcome.stderr, CommandLine(args)))))
        && (outcome.SpawnFailed? ==>
              resp == ServerError(CommandFailed, Some("Failed to execute command: " + outcome.message)))
        && (outcome.TimedOut? ==> resp == ServerError(CommandFailed, Some(TimeoutMessage)))
    {
      if command.None? || command.value == "" || command.value !in AllowedCommands {
        return BadRequest(InvalidCommand), None;
      }
      var slot := Locate(ParseId(rawId), |files|);
      if slot.Missing? {
        return NotFound(FileNotFound), None;
      } else if slot.Undefined? {
        return ServerError(CommandFailed, Some(ReadPathOfUndefined)), None;
      }
      var file := files[slot.index];
      WellFormedDirname(file.file);
      var ex := ExecuteComposeCommand(file.file.path, command.value, outcome);
      spawned := ex.spawned;
      if ex.result.Ok? {
        resp := Success(CommandBody(file, command.value, ex.result.value));
      } else {
        resp := ServerError(CommandFailed, Some(ex.result.error));
      }
    }
  }

  /** A catalogue that was just filled answers the next listing from memory until the time-to-live runs out. */
  lemma ScanThenCache(scanTime: int, now: int, files: seq<ComposeFileRef>)
    requires scanTime != 0 && |files| > 0
    ensures ServeFromCache(false, Some(scanTime), now, |files|) <==> now - scanTime < CacheTtlMs
    ensures !ServeFromCache(true, Some(scanTime), now, |files|)
  {
  }

  /** A catalogue that was never filled, or whose scan found nothing, always rescans. */
  lemma EmptyOrNewRescans(forceRefresh: bool, lastScanTime: Option<int>, now: int, cached: nat)
    ensures !ServeFromCache(forceRefresh, None, now, cached)
    ensures !ServeFromCache(forceRefresh, lastScanTime, now, 0)
  {
  }
}

=== FILE: compose_scanner.dfy ===
/**
 * Discovery of compose files: the bounded depth-first walk of `scanDirectory`
 * and the numbering done by `scanForComposeFiles`.
 *
 * The filesystem is a tree of `Node`s. A directory that `readdir` can list
 * carries its entries in listing order; one it cannot list is `Unreadable`;
 * a regular file carries the result of `stat` (None when `stat` fails);
 * anything else (symbolic link, socket, device) is `Special`, which is
 * neither a file nor a directory for a `Dirent`.
 */
module ComposeScanner {
  import opened Wrappers
  import opened PathText

  datatype Stat = Stat(size: nat, mtime: int)

  datatype Node =
    | Dir(name: string, entries: seq<Node>)
    | Unreadable(name: string)
    | File(name: string, stat: Option<Stat>)
    | Special(name: string)
  {
    /** `entry.isDirectory()`. */
    predicate IsDirectory() { Dir? || Unreadable? }
  }

  /** A discovered file, as pushed into the results list. */
  datatype FileInfo = FileInfo(name: string, path: string, directory: string, size: nat, modified: int)

  /** A discovered file with its position in the catalog. */
  datatype ComposeFileRef = ComposeFileRef(id: nat, file: FileInfo)

  const ComposePatterns: seq<string> := ["docker-compose.yml", "docker-compose.yaml", "compose.yml", "compose.yaml"]
  const SkipDirs: seq<string> := ["node_modules", ".git", "vendor", "__pycache__", ".venv", "venv"]
  /** The depth bound `scanForComposeFiles` passes for every root. */
  const MaxDepth: nat := 5
  /** The root list used when SCAN_DIRECTORIES is unset or empty. */
  const DefaultScanDirs: string := "C:\\Users"

  /** A directory entry the walk descends into: not in the skip list and not dot-prefixed. */
  predicate Descends(name: string)
  {
    name !in SkipDirs && !(|name| > 0 && name[0] == '.')
  }

  /** A file name that is one of the four compose names, ignoring case. */
  predicate IsComposeName(name: string)
  {
    Lower(name) in ComposePatterns
  }

  /** What `scanDirectory(dirPath, ..., depth, maxDepth)` appends for the node at `dirPath`. */
  function ScanSpec(dirPath: string, node: Node, depth: nat, maxDepth: nat): seq<FileInfo>
    decreases node, 0
  {
    if depth > maxDepth then []
    else match node
      case Dir(_, entries) => ListingSpec(dirPath, entries, depth, maxDepth)
      case _ => []
  }

  /** What the loop over a listing appends, entry after entry. */
  function ListingSpec(dirPath: string, entries: seq<Node>, depth: nat, maxDepth: nat): seq<FileInfo>
    decreases entries
  {
    if entries == [] then []
    else ListingSpec(dirPath, entries[..|entries| - 1], depth, maxDepth)
         + EntrySpec(dirPath, entries[|entries| - 1], depth, maxDepth)
  }

  /** What one entry of the directory at `dirPath` contributes. */
  function EntrySpec(dirPath: string, entry: Node, depth: nat, maxDepth: nat): seq<FileInfo>
    decreases entry, 1
  {
    if entry.IsDirectory() then
      if Descends(entry.name) then ScanSpec(Join(dirPath, entry.name), entry, depth + 1, maxDepth) else []
    else if entry.File? && IsComposeName(entry.name) && entry.stat.Some? then
      [FileInfo(entry.name, Join(dirPath, entry.name), dirPath, entry.stat.value.size, entry.stat.value.mtime)]
    else []
  }

  /**
   * `scanDirectory`: walks the node at `dirPath` and appends every compose file
   * it finds to `results`, in listing order, descending into subdirectories.
   */
  method ScanDirectory(dirPath: string, node: Node, currentDepth: nat, maxDepth: nat, results: seq<FileInfo>)
    returns (out: seq<FileInfo>)
    ensures out == results + ScanSpec(dirPath, node, currentDepth, maxDepth)
    decreases node
  {
    if currentDepth > maxDepth {
      return results;
    }
    if !node.Dir? {
      // readdir failed: the directory is skipped
      return results;
    }
    var entries := node.entries;
    out := results;
    var i := 0;
    while i < |entries|
      invariant 0 <= i <= |entries|
      invariant out == results + ListingSpec(dirPath, entries[..i], currentDepth, maxDepth)
    {
      var entry := entries[i];
      var fullPath := Join(dirPath, entry.name);
      if entry.IsDirectory() {
        if Descends(entry.name) {
          out := ScanDirectory(fullPath, entry, currentDepth + 1, maxDepth, out);
        }
      } else if entry.File? && IsComposeName(entry.name) {
        match entry.stat {
          case Some(st) =>
            out := out + [FileInfo(entry.name, fullPath, dirPath, st.size, st.mtime)];
          case None =>
            // stat failed: the file is skipped
        }
      }
      assert entries[..i + 1][..i] == entries[..i];
      i := i + 1;
    }
    assert entries[..i] == entries;
  }

  /** Splitting a listing anywhere splits its matches at the same point: earlier entries, with their whole subtrees, come first. */
  lemma {:induction false} ListingConcat(dirPath: string, a: seq<Node>, b: seq<Node>, depth: nat, maxDepth: nat)
    ensures ListingSpec(dirPath, a + b, depth, maxDepth)
         == ListingSpec(dirPath, a, depth, maxDepth) + ListingSpec(dirPath, b, depth, maxDepth)
    decreases |b|
  {
    if b == [] {
      assert a + b == a;
    } else {
      var b' := b[..|b| - 1];
      ListingConcat(dirPath, a, b', depth, maxDepth);
      assert (a + b)[..|a + b| - 1] == a + b';
      assert (a + b)[|a + b| - 1] == b[|b| - 1];
    }
  }

  /**
   * An unreadable directory, a skipped directory, an entry that is neither file nor
   * directory, and a file that is not a compose file or cannot be stat-ed contribute
   * nothing, and the scan of their siblings goes on unchanged.
   */
  lemma FailureIsLocal(dirPath: string, before: seq<Node>, entry: Node, after: seq<Node>, depth: nat, maxDepth: nat)
    requires || entry.Unreadable? || entry.Special?
             || (entry.Dir? && !Descends(entry.name))
             || (entry.File? && (entry.stat.None? || !IsComposeName(entry.name)))
    ensures ListingSpec(dirPath, before + [entry] + after, depth, maxDepth)
         == ListingSpec(dirPath, before, depth, maxDepth) + ListingSpec(dirPath, after, depth, maxDepth)
  {
    ListingOfOne(dirPath, entry, depth, maxDepth);
    var withEntry := before + [entry];
    ListingConcat(dirPath, withEntry, after, depth, maxDepth);
    ListingConcat(dirPath, before, [entry], depth, maxDepth);
    assert ListingSpec(dirPath, withEntry, depth, maxDepth) == ListingSpec(dirPath, before, depth, maxDepth);
  }

  /** A one-entry listing yields what its entry contributes. */
  lemma ListingOfOne(dirPath: string, entry: Node, depth: nat, maxDepth: nat)
    ensures ListingSpec(dirPath, [entry], depth, maxDepth) == EntrySpec(dirPath, entry, depth, maxDepth)
  {
    assert [entry][..0] == [];
  }

  /** Some entry of the listing accounts for each match of the listing. */
  lemma {:induction false} ListingMember(dirPath: string, entries: seq<Node>, depth: nat, maxDepth: nat, f: FileInfo)
    returns (k: nat)
    requires f in ListingSpec(dirPath, entries, depth, maxDepth)
    ensures k < |entries| && f in EntrySpec(dirPath, entries[k], depth, maxDepth)
    decreases entries
  {
    var n := |entries| - 1;
    if f in EntrySpec(dirPath, entries[n], depth, maxDepth) {
      k := n;
    } else {
      k := ListingMember(dirPath, entries[..n], depth, maxDepth, f);
    }
  }

  /** Every match of an entry is a match of the listing that holds it. */
  lemma ListingContains(dirPath: string, entries: seq<Node>, k: nat, depth: nat, maxDepth: nat)
    requires k < |entries|
    ensures forall f :: f in EntrySpec(dirPath, entries[k], depth, maxDepth) ==> f in ListingSpec(dirPath, entries, depth, maxDepth)
  {
    var rest := entries[k + 1..];
    assert entries == entries[..k] + ([entries[k]] + rest);
    ListingConcat(dirPath, entries[..k], [entries[k]] + rest, depth, maxDepth);
    ListingConcat(dirPath, [entries[k]], rest, depth, maxDepth);
    assert [entries[k]][..0] == [];
  }

  /** `target` is an entry of the directory reached from `node` through the subdirectories named `segs`. */
  ghost predicate Reaches(node: Node, segs: seq<string>, target: Node)
    decreases |segs|
  {
    node.Dir? &&
    if segs == [] then target in node.entries
    else exists child :: child in node.entries && child.Dir? && child.name == segs[0] && Reaches(child, segs[1..], target)
  }

  /**
   * The reference description of a reported file: it lies in a readable directory
   * reached from the directory at `dirPath` (scanned at `depth`) through subdirectories
   * that are neither skipped nor hidden, at most `maxDepth` levels down in all; its name
   * is a compose name; and its record holds its own name, the joined path, the
   * containing directory and its stat.
   */
  ghost predicate Reported(dirPath: string, node: Node, segs: seq<string>, f: FileInfo, depth: nat, maxDepth: nat)
  {
    && depth + |segs| <= maxDepth
    && (forall k :: 0 <= k < |segs| ==> Descends(segs[k]))
    && IsComposeName(f.name)
    && f.directory == JoinAll(dirPath, segs)
    && f.path == Join(f.directory, f.name)
    && Reaches(node, segs, File(f.name, Some(Stat(f.size, f.modified))))
  }

  /** Soundness of the walk: everything it reports fits the reference description. */
  lemma {:induction false} ScanSound(dirPath: string, node: Node, depth: nat, maxDepth: nat, f: FileInfo)
    requires f in ScanSpec(dirPath, node, depth, maxDepth)
    ensures exists segs :: Reported(dirPath, node, segs, f, depth, maxDepth)
    decreases node
  {
    var entries := node.entries;
    var k := ListingMember(dirPath, entries, depth, maxDepth, f);
    var e := entries[k];
    if e.IsDirectory() {
      var sub := Join(dirPath, e.name);
      ScanSound(sub, e, depth + 1, maxDepth, f);
      var segs :| Reported(sub, e, segs, f, depth + 1, maxDepth);
      var segs' := [e.name] + segs;
      assert segs'[1..] == segs;
      assert Reaches(node, segs', File(f.name, Some(Stat(f.size, f.modified))));
      assert Reported(dirPath, node, segs', f, depth, maxDepth);
    } else {
      assert Reported(dirPath, node, [], f, depth, maxDepth);
    }
  }

  /** Completeness of the walk: every file fitting the reference description is reported. */
  lemma {:induction false} ScanComplete(dirPath: string, node: Node, segs: seq<string>, f: FileInfo, depth: nat, maxDepth: nat)
    requires Reported(dirPath, node, segs, f, depth, maxDepth)
    ensures f in ScanSpec(dirPath, node, depth, maxDepth)
    decreases |segs|
  {
    var target := File(f.name, Some(Stat(f.size, f.modified)));
    if segs == [] {
      var k :| 0 <= k < |node.entries| && node.entries[k] == target;
      assert EntrySpec(dirPath, target, depth, maxDepth) == [f];
      ListingContains(dirPath, node.entries, k, depth, maxDepth);
    } else {
      var child :| child in node.entries && child.Dir? && child.name == segs[0] && Reaches(child, segs[1..], target);
      var sub := Join(dirPath, segs[0]);
      assert Reported(sub, child, segs[1..], f, depth + 1, maxDepth);
      ScanComplete(sub, child, segs[1..], f, depth + 1, maxDepth);
      var k :| 0 <= k < |node.entries| && node.entries[k] == child;
      ListingContains(dirPath, node.entries, k, depth, maxDepth);
    }
  }

  /**
   * The walk reports exactly the compose files at most `maxDepth` levels below the
   * scanned directory that are not under a skipped, hidden or unreadable directory.
   */
  lemma ScanFindsExactly(dirPath: string, node: Node, depth: nat, maxDepth: nat, f: FileInfo)
    ensures f in ScanSpec(dirPath, node, depth, maxDepth) <==> exists segs :: Reported(dirPath, node, segs, f, depth, maxDepth)
  {
    if f in ScanSpec(dirPath, node, depth, maxDepth) {
      ScanSound(dirPath, node, depth, maxDepth, f);
    } else if segs :| Reported(dirPath, node, segs, f, depth, maxDepth) {
      ScanComplete(dirPath, node, segs, f, depth, maxDepth);
    }
  }

  /** A two-entry listing yields the first entry's matches, then the second's. */
  lemma ListingOfTwo(dirPath: string, x: Node, y: Node, depth: nat, maxDepth: nat)
    ensures ListingSpec(dirPath, [x, y], depth, maxDepth)
         == EntrySpec(dirPath, x, depth, maxDepth) + EntrySpec(dirPath, y, depth, maxDepth)
  {
    assert [x, y][..1] == [x];
    assert [x][..0] == [];
    assert ListingSpec(dirPath, [x], depth, maxDepth) == EntrySpec(dirPath, x, depth, maxDepth);
    assert ListingSpec(dirPath, [x, y], depth, maxDepth)
        == ListingSpec(dirPath, [x], depth, maxDepth) + EntrySpec(dirPath, y, depth, maxDepth);
  }

  /** The directory names of the scenario below: one skipped, one hidden, one scanned. */
  lemma ScenarioNames()
    ensures !Descends("node_modules") && !Descends(".hidden") && Descends("a")
    ensures IsComposeName("docker-compose.yml")
  {
    assert SkipDirs[0] == "node_modules";
    assert Lower("docker-compose.yml") == ComposePatterns[0];
  }

  /** Of a compose file beside a node_modules copy and a hidden one, only the visible one is found. */
  lemma ScanScenario(root: string, st1: Stat, st2: Stat, st3: Stat)
    ensures ScanSpec(root, Dir("root", [
                Dir("a", [File("docker-compose.yml", Some(st1)),
                          Dir("node_modules", [File("docker-compose.yml", Some(st2))])]),
                Dir(".hidden", [File("docker-compose.yaml", Some(st3))])]), 0, MaxDepth)
         == [FileInfo("docker-compose.yml", Join(Join(root, "a"), "docker-compose.yml"), Join(root, "a"), st1.size, st1.mtime)]
  {
    ScenarioNames();
    var name := "docker-compose.yml";
    var sub := Join(root, "a");
    var found := FileInfo(name, Join(sub, name), sub, st1.size, st1.mtime);
    var file := File(name, Some(st1));
    var modules := Dir("node_modules", [File(name, Some(st2))]);
    var a := Dir("a", [file, modules]);
    var hidden := Dir(".hidden", [File("docker-compose.yaml", Some(st3))]);
    assert EntrySpec(sub, file, 1, MaxDepth) == [found];
    assert EntrySpec(sub, modules, 1, MaxDepth) == [];
    ListingOfTwo(sub, file, modules, 1, MaxDepth);
    assert EntrySpec(root, a, 0, MaxDepth) == [found];
    assert EntrySpec(root, hidden, 0, MaxDepth) == [];
    ListingOfTwo(root, a, hidden, 0, MaxDepth);
  }

  /** The root list: SCAN_DIRECTORIES (or the default when unset or empty), split on commas, each trimmed. */
  function ScanRoots(env: Option<string>): (roots: seq<string>)
    ensures |roots| >= 1
    ensures forall k :: 0 <= k < |roots| ==> ',' !in roots[k] && NoOuterSpace(roots[k])
  {
    var raw := if env.None? || env.value == "" then DefaultScanDirs else env.value;
    TrimPieces(Split(raw, ','))
  }

  /** `.map(d => d.trim())` over comma-free pieces: each result is trimmed and still comma-free. */
  function TrimPieces(parts: seq<string>): (roots: seq<string>)
    requires forall k :: 0 <= k < |parts| ==> ',' !in parts[k]
    ensures |roots| == |parts|
    ensures forall k :: 0 <= k < |roots| ==> roots[k] == Trim(parts[k])
    ensures forall k :: 0 <= k < |roots| ==> ',' !in roots[k] && NoOuterSpace(roots[k])
  {
    var roots := seq(|parts|, k requires 0 <= k < |parts| => Trim(parts[k]));
    forall k | 0 <= k < |roots| ensures ',' !in roots[k] && NoOuterSpace(roots[k]) {
      TrimmedPiece(parts[k]);
    }
    roots
  }

  /** Trimming a comma-free piece gives a root. */
  lemma TrimmedPiece(part: string)
    requires ',' !in part
    ensures ',' !in Trim(part)
  {
    var i: nat :| SpaceAround(part, i, Trim(part));
  }

  /** The roots of a comma-joined list of comma-free pieces are the trimmed pieces. */
  lemma ScanRootsOfJoin(pieces: seq<string>)
    requires |pieces| >= 1 && JoinWith(pieces, ',') != ""
    requires forall k :: 0 <= k < |pieces| ==> ',' !in pieces[k]
    ensures ScanRoots(Some(JoinWith(pieces, ','))) == TrimPieces(pieces)
  {
    var raw := JoinWith(pieces, ',');
    SplitJoin(pieces, ',');
    assert ScanRoots(Some(raw)) == TrimPieces(Split(raw, ','));
  }

  /**
   * Each root is the trimmed piece of SCAN_DIRECTORIES between two commas: with
   * `" /a , /b"` the roots are `"/a"` and `"/b"`.
   */
  lemma ScanRootsTrimsPieces(pieces: seq<string>)
    requires |pieces| >= 1 && JoinWith(pieces, ',') != ""
    requires forall k :: 0 <= k < |pieces| ==> ',' !in pieces[k]
    ensures |ScanRoots(Some(JoinWith(pieces, ',')))| == |pieces|
    ensures forall k :: 0 <= k < |pieces| ==> ScanRoots(Some(JoinWith(pieces, ',')))[k] == Trim(pieces[k])
  {
    ScanRootsOfJoin(pieces);
  }

  /** A root list free of commas and of surrounding white space survives the round trip through SCAN_DIRECTORIES. */
  lemma ScanRootsRoundTrip(roots: seq<string>)
    requires |roots| >= 1 && roots != [""]
    requires forall k :: 0 <= k < |roots| ==> ',' !in roots[k] && NoOuterSpace(roots[k])
    ensures ScanRoots(Some(JoinWith(roots, ','))) == roots
  {
    JoinNotEmpty(roots);
    ScanRootsOfJoin(roots);
    TrimPiecesOfRoots(roots);
  }

  /** Trimming pieces that are already roots changes nothing. */
  lemma TrimPiecesOfRoots(roots: seq<string>)
    requires forall k :: 0 <= k < |roots| ==> ',' !in roots[k] && NoOuterSpace(roots[k])
    ensures TrimPieces(roots) == roots
  {
    forall k | 0 <= k < |roots| ensures TrimPieces(roots)[k] == roots[k] {
      TrimOfTrimmed(roots[k]);
    }
  }

  /** A join of several parts contains a comma; a join of one non-empty part is that part. */
  lemma JoinNotEmpty(roots: seq<string>)
    requires |roots| >= 1 && roots != [""]
    ensures JoinWith(roots, ',') != ""
  {
    if |roots| > 1 {
      JoinWithCons(roots[0], roots[1..], ',');
      assert [roots[0]] + roots[1..] == roots;
    }
  }

  /** Without SCAN_DIRECTORIES, or with it empty, the single default root is scanned. */
  lemma ScanRootsDefault()
    ensures ScanRoots(None) == [DefaultScanDirs]
    ensures ScanRoots(Some("")) == [DefaultScanDirs]
  {
    SingleRoot(DefaultScanDirs);
  }

  /** A single root without commas or surrounding white space is read as itself. */
  lemma SingleRoot(d: string)
    requires d != [] && ',' !in d && !IsJsSpace(d[0]) && !IsJsSpace(d[|d| - 1])
    ensures ScanRoots(Some(d)) == [d]
  {
    SplitJoin([d], ',');
    assert JoinWith([d], ',') == d;
    TrimOfTrimmed(d);
  }

  /** The node `readdir` sees at a root path; a path missing from `fs` cannot be read. */
  function RootNode(fs: map<string, Node>, path: string): Node
  {
    if path in fs then fs[path] else Unreadable(path)
  }

  /** The concatenated results of scanning each root from depth 0 to `MaxDepth`, in list order. */
  function RootsSpec(roots: seq<string>, fs: map<string, Node>): seq<FileInfo>
  {
    if roots == [] then []
    else RootsSpec(roots[..|roots| - 1], fs) + ScanSpec(roots[|roots| - 1], RootNode(fs, roots[|roots| - 1]), 0, MaxDepth)
  }

  /** The `map((file, index) => ({id: index, ...file}))` step: ids are the 0-based positions. */
  function Number(files: seq<FileInfo>): (refs: seq<ComposeFileRef>)
    ensures |refs| == |files|
    ensures forall i :: 0 <= i < |refs| ==> refs[i].id == i && refs[i].file == files[i]
  {
    seq(|files|, i requires 0 <= i < |files| => ComposeFileRef(i, files[i]))
  }

  /** The file records of a numbered list, without their ids. */
  function Files(refs: seq<ComposeFileRef>): seq<FileInfo>
  {
    seq(|refs|, i requires 0 <= i < |refs| => refs[i].file)
  }

  /** Every id equals its position. */
  predicate DenseIds(refs: seq<ComposeFileRef>)
  {
    forall i :: 0 <= i < |refs| ==> refs[i].id == i
  }

  /** Numbering loses nothing: dropping the ids gives the records back, and any densely numbered list is a numbering. */
  lemma NumberRoundTrip(files: seq<FileInfo>, refs: seq<ComposeFileRef>)
    ensures Files(Number(files)) == files
    ensures DenseIds(refs) ==> Number(Files(refs)) == refs
  {
    if DenseIds(refs) {
      var n := Number(Files(refs));
      assert forall i :: 0 <= i < |refs| ==> n[i] == ComposeFileRef(refs[i].id, refs[i].file);
    }
  }

  /** Every file a list of roots yields was found under one of the roots. */
  lemma {:induction false} RootsMember(roots: seq<string>, fs: map<string, Node>, f: FileInfo) returns (k: nat)
    requires f in RootsSpec(roots, fs)
    ensures k < |roots| && f in ScanSpec(roots[k], RootNode(fs, roots[k]), 0, MaxDepth)
    decreases |roots|
  {
    var last := |roots| - 1;
    if f in ScanSpec(roots[last], RootNode(fs, roots[last]), 0, MaxDepth) {
      k := last;
    } else {
      k := RootsMember(roots[..last], fs, f);
      assert roots[..last][k] == roots[k];
    }
  }

  /** A name that matches a compose pattern cannot contain the separator. */
  lemma ComposeNameHasNoSep(name: string)
    requires IsComposeName(name)
    ensures Sep !in name
  {
    assert Sep !in Lower(name);
    forall i | 0 <= i < |name|
      ensures name[i] != Sep
    {
      assert Lower(name)[i] == LowerChar(name[i]);
    }
  }

  /** The shape of a record the scan produces: a compose name, and a path that joins its directory and its name. */
  predicate WellFormed(f: FileInfo)
  {
    IsComposeName(f.name) && f.path == Join(f.directory, f.name)
  }

  /** `path.dirname` of a well-formed record's path is its directory. */
  lemma WellFormedDirname(f: FileInfo)
    requires WellFormed(f)
    ensures Dirname(f.path) == f.directory
  {
    ComposeNameHasNoSep(f.name);
    DirnameBasenameOfJoin(f.directory, f.name);
  }

  /**
   * Every record the roots yield is well formed, so `path.dirname` of its path is
   * exactly the directory it was found in, and its base name is its name.
   */
  lemma ScannedFileShape(roots: seq<string>, fs: map<string, Node>, f: FileInfo)
    requires f in RootsSpec(roots, fs)
    ensures WellFormed(f)
    ensures Dirname(f.path) == f.directory && Basename(f.path) == f.name
  {
    var k := RootsMember(roots, fs, f);
    ScanSound(roots[k], RootNode(fs, roots[k]), 0, MaxDepth, f);
    var segs :| Reported(roots[k], RootNode(fs, roots[k]), segs, f, 0, MaxDepth);
    ComposeNameHasNoSep(f.name);
    DirnameBasenameOfJoin(f.directory, f.name);
  }

  /** Every numbered record of a scan is well formed. */
  lemma NumberedScanWellFormed(roots: seq<string>, fs: map<string, Node>)
    ensures var refs := Number(RootsSpec(roots, fs));
      forall i :: 0 <= i < |refs| ==> WellFormed(refs[i].file)
  {
    var files := RootsSpec(roots, fs);
    forall i | 0 <= i < |files|
      ensures WellFormed(files[i])
    {
      ScannedFileShape(roots, fs, files[i]);
    }
  }

  /** The `for (const dir of scanDirs)` loop of `scanForComposeFiles`: every root in order, from depth 0. */
  method ScanEachRoot(scanDirs: seq<string>, fs: map<string, Node>) returns (composeFiles: seq<FileInfo>)
    ensures composeFiles == RootsSpec(scanDirs, fs)
  {
    composeFiles := [];
    for i := 0 to |scanDirs|
      invariant composeFiles == RootsSpec(scanDirs[..i], fs)
    {
      composeFiles := ScanDirectory(scanDirs[i], RootNode(fs, scanDirs[i]), 0, MaxDepth, composeFiles);
      assert scanDirs[..i + 1][..i] == scanDirs[..i];
    }
    assert scanDirs[..|scanDirs|] == scanDirs;
  }

  /** `scanForComposeFiles`: reads the roots, scans each in order, then numbers the results. */
  method ScanForComposeFiles(env: Option<string>, fs: map<string, Node>) returns (refs: seq<ComposeFileRef>)
    ensures refs == Number(RootsSpec(ScanRoots(env), fs))
    ensures DenseIds(refs)
    ensures forall i :: 0 <= i < |refs| ==> WellFormed(refs[i].file)
  {
    var scanDirs := ScanRoots(env);
    var composeFiles := ScanEachRoot(scanDirs, fs);
    refs := Number(composeFiles);
    NumberedScanWellFormed(scanDirs, fs);
  }
}

=== FILE: path_text.dfy ===
/**
 * The string helpers the compose service relies on: `path.join`, `path.dirname`,
 * `String.prototype.toLowerCase`, `split(',')` and `trim()`, over `seq<char>`.
 */
module PathText {
  import opened Wrappers

  /** The path separator `path.join` inserts (POSIX). */
  const Sep: char := '/'

  /** `path.join(dir, name)` for a directory path and one entry name. */
  function Join(dir: string, name: string): (r: string)
    ensures |r| == |dir| + 1 + |name|
    ensures r[..|dir|] == dir && r[|dir|] == Sep && r[|dir| + 1..] == name
  {
    dir + [Sep] + name
  }

  /** Joins a list of segments onto a directory, left to right. */
  function JoinAll(dir: string, segs: seq<string>): string
    decreases |segs|
  {
    if segs == [] then dir else JoinAll(Join(dir, segs[0]), segs[1..])
  }

  /** The position of the last occurrence of `c` in `s`, if any. */
  function LastIndex(s: string, c: char): (r: Option<nat>)
    ensures r.Some? ==> r.value < |s| && s[r.value] == c && c !in s[r.value + 1..]
    ensures r.None? ==> c !in s
  {
    if s == [] then None
    else if s[|s| - 1] == c then Some(|s| - 1)
    else
      var r := LastIndex(s[..|s| - 1], c);
      assert s == s[..|s| - 1] + [s[|s| - 1]];
      r
  }

  /** `path.dirname(p)`: what precedes the last separator, or "." when there is none. */
  function Dirname(p: string): (r: string)
    ensures Sep !in p ==> r == "."
    ensures Sep in p ==> |r| < |p| && p[..|r|] == r && p[|r|] == Sep && Sep !in p[|r| + 1..]
  {
    match LastIndex(p, Sep)
    case None => "."
    case Some(i) => p[..i]
  }

  /** `path.basename(p)`: what follows the last separator. */
  function Basename(p: string): string
  {
    match LastIndex(p, Sep)
    case None => p
    case Some(i) => p[i + 1..]
  }

  /** Joining an entry name onto a directory can be undone by dirname and basename. */
  lemma DirnameBasenameOfJoin(dir: string, name: string)
    requires Sep !in name
    ensures Dirname(Join(dir, name)) == dir
    ensures Basename(Join(dir, name)) == name
  {
    var p := Join(dir, name);
    assert p[|dir|] == Sep;
    assert p[|dir| + 1..] == name;
    var r := LastIndex(p, Sep);
    assert r == Some(|dir|);
  }

  /** The ASCII part of `toLowerCase` on one character. */
  function LowerChar(c: char): char
  {
    if 'A' <= c <= 'Z' then (c as int + 32) as char else c
  }

  /** `s.toLowerCase()`, character by character. */
  function Lower(s: string): (r: string)
    ensures |r| == |s|
    ensures forall i :: 0 <= i < |s| ==> r[i] == LowerChar(s[i])
  {
    seq(|s|, i requires 0 <= i < |s| => LowerChar(s[i]))
  }

  /** Lower-casing twice is lower-casing once: a lower-case name matches itself. */
  lemma LowerIdempotent(s: string)
    ensures Lower(Lower(s)) == Lower(s)
  {
  }

  /** `s.split(c)`: the pieces between occurrences of `c`; never empty. */
  function Split(s: string, c: char): (parts: seq<string>)
    ensures |parts| >= 1
    ensures forall k :: 0 <= k < |parts| ==> c !in parts[k]
  {
    if s == [] then [""]
    else
      var rest := Split(s[1..], c);
      if s[0] == c then [""] + rest
      else [[s[0]] + rest[0]] + rest[1..]
  }

  /** `parts.join(c)`. */
  function JoinWith(parts: seq<string>, c: char): string
  {
    if parts == [] then ""
    else if |parts| == 1 then parts[0]
    else parts[0] + [c] + JoinWith(parts[1..], c)
  }

  /** Joining a list with a first element in front. */
  lemma JoinWithCons(head: string, tail: seq<string>, c: char)
    ensures JoinWith([head] + tail, c) == if tail == [] then head else head + [c] + JoinWith(tail, c)
  {
    assert ([head] + tail)[1..] == tail;
  }

  /** Splitting a non-empty string, in terms of splitting its tail. */
  lemma SplitCons(s: string, c: char)
    requires s != []
    ensures var rest := Split(s[1..], c);
      Split(s, c) == if s[0] == c then [""] + rest else [[s[0]] + rest[0]] + rest[1..]
  {
  }

  /** A string without the separator splits into itself alone. */
  lemma {:induction false} SplitWithoutSeparator(p: string, c: char)
    requires c !in p
    ensures Split(p, c) == [p]
    decreases |p|
  {
    if p != [] {
      assert p[0] != c by { assert p[0] in p; }
      assert c !in p[1..] by { forall x | x in p[1..] ensures x in p { } }
      SplitWithoutSeparator(p[1..], c);
      SplitCons(p, c);
      assert [p[0]] + p[1..] == p;
    }
  }

  /** Two separator-free pieces joined by the separator split back into those two pieces. */
  lemma SplitPair(a: string, c: char, b: string)
    requires c !in a && c !in b
    ensures Split(a + [c] + b, c) == [a, b]
  {
    SplitAfterPiece(a, c, b);
    SplitWithoutSeparator(b, c);
  }

  /** A separator-free piece followed by the separator splits off as the first part. */
  lemma {:induction false} SplitAfterPiece(p: string, c: char, t: string)
    requires c !in p
    ensures Split(p + [c] + t, c) == [p] + Split(t, c)
    decreases |p|
  {
    var s := p + [c] + t;
    SplitCons(s, c);
    if p == [] {
      assert s == [c] + t;
      assert s[1..] == t;
    } else {
      assert p[0] != c by { assert p[0] in p; }
      assert c !in p[1..] by { forall x | x in p[1..] ensures x in p { } }
      SplitAfterPiece(p[1..], c, t);
      assert s[0] == p[0];
      assert s[1..] == p[1..] + [c] + t;
      assert [p[0]] + p[1..] == p;
    }
  }

  /** The position of the first occurrence of `c` in `s`. */
  function FirstIndex(s: string, c: char): (i: nat)
    requires c in s
    ensures i < |s| && s[i] == c
    ensures forall k :: 0 <= k < i ==> s[k] != c
  {
    if s[0] == c then 0 else 1 + FirstIndex(s[1..], c)
  }

  /** Splitting and joining on the same separator restores the string. */
  lemma {:induction false} JoinSplit(s: string, c: char)
    ensures JoinWith(Split(s, c), c) == s
    decreases |s|
  {
    if c !in s {
      SplitWithoutSeparator(s, c);
    } else {
      var i := FirstIndex(s, c);
      var p, t := s[..i], s[i + 1..];
      assert s == p + [c] + t;
      SplitAfterPiece(p, c, t);
      JoinSplit(t, c);
      JoinWithCons(p, Split(t, c), c);
    }
  }

  /** Joining pieces that do not contain the separator and splitting again gives the pieces back. */
  lemma {:induction false} SplitJoin(parts: seq<string>, c: char)
    requires |parts| >= 1
    requires forall k :: 0 <= k < |parts| ==> c !in parts[k]
    ensures Split(JoinWith(parts, c), c) == parts
    decreases |parts|
  {
    if |parts| == 1 {
      SplitWithoutSeparator(parts[0], c);
    } else {
      var tail := parts[1..];
      JoinWithCons(parts[0], tail, c);
      assert [parts[0]] + tail == parts;
      SplitAfterPiece(parts[0], c, JoinWith(tail, c));
      SplitJoin(tail, c);
    }
  }

  /** The characters `String.prototype.trim` strips: ECMAScript WhiteSpace and LineTerminator. */
  predicate IsJsSpace(ch: char)
  {
    || ('\t' <= ch <= '\r')
    || ch == ' ' || ch == '\U{00A0}' || ch == '\U{1680}'
    || ('\U{2000}' <= ch <= '\U{200A}')
    || ch == '\U{2028}' || ch == '\U{2029}' || ch == '\U{202F}' || ch == '\U{205F}'
    || ch == '\U{3000}' || ch == '\U{FEFF}'
  }

  /** Drops leading white space: the result is a suffix, and only white space was dropped. */
  function TrimStart(s: string): (r: string)
    ensures |r| <= |s| && r == s[|s| - |r|..]
    ensures forall k :: 0 <= k < |s| - |r| ==> IsJsSpace(s[k])
    ensures r == [] || !IsJsSpace(r[0])
  {
    if s != [] && IsJsSpace(s[0]) then
      var r := TrimStart(s[1..]);
      assert s[1..][|s| - 1 - |r|..] == s[|s| - |r|..];
      r
    else s
  }

  /** Drops trailing white space: the result is a prefix, and only white space was dropped. */
  function TrimEnd(s: string): (r: string)
    ensures |r| <= |s| && r == s[..|r|]
    ensures forall k :: |r| <= k < |s| ==> IsJsSpace(s[k])
    ensures r == [] || !IsJsSpace(r[|r| - 1])
  {
    if s != [] && IsJsSpace(s[|s| - 1]) then TrimEnd(s[..|s| - 1]) else s
  }

  /** `s` neither starts nor ends with white space. */
  predicate NoOuterSpace(s: string)
  {
    s == [] || (!IsJsSpace(s[0]) && !IsJsSpace(s[|s| - 1]))
  }

  /** `r` is the slice of `s` at `i`, and everything of `s` before and after it is white space. */
  predicate SpaceAround(s: string, i: nat, r: string)
  {
    && i + |r| <= |s| && r == s[i..i + |r|]
    && (forall k :: 0 <= k < i ==> IsJsSpace(s[k]))
    && (forall k :: i + |r| <= k < |s| ==> IsJsSpace(s[k]))
  }

  /** `s.trim()`. */
  function Trim(s: string): (r: string)
    ensures NoOuterSpace(r)
    ensures exists i: nat :: SpaceAround(s, i, r)
  {
    var t := TrimStart(s);
    var r := TrimEnd(t);
    assert SpaceAround(s, |s| - |t|, r);
    r
  }

  /** A string with no white space at either end is its own trim. */
  lemma TrimOfTrimmed(s: string)
    requires NoOuterSpace(s)
    ensures Trim(s) == s
  {
  }
}

=== FILE: wrappers.dfy ===
/** Option and Result values shared by the compose modules. */
module Wrappers {

  /** A value that may be absent: JavaScript's `undefined`/`null` results. */
  datatype Option<+T> = None | Some(value: T)

  /** The outcome of an operation that may throw: a value, or the message of the error. */
  datatype Result<+T> = Ok(value: T) | Err(error: string)
}
